=== FILE: README.md ===
# A verified model of the profiler's command core

The profiler runs a command and reports where its time went. A Python command
is run under cProfile and its per-call-site statistics are normalised into a
dict of timing records. Any other command is timed as a whole. The result is
then shown as ranked tables.

The repository contains this logic twice:

- `ultralytics_profile/profiler.py` is the ultralytics variant, called `Rich`
  in the model. It adds noise filters, library namespaces, a priority tier
  and a self-time table.
- `profile/profiler.py` is the generic variant, called `Plain` in the model.

This project models the deterministic layer around the processes and proves
its properties in Dafny:

- the command classifier;
- the cProfile argument vector and the resolve-or-fall-back decision;
- both sample normalisers;
- the single record of a command timed as a whole;
- the report views;
- the dispatch in `profile_command`.

Modules, one per file:

- `wrappers.dfy` (module `Wrappers`): `Option`
- `text.dfy` (module `Text`): `str` operations: `startswith`, `endswith`, `find`, `in`, `split(sep)`, `join`, `split()`, `lower()`, `str(int)`
- `pure_path.dfy` (module `PurePath`): `PurePosixPath(...).name`, `.suffix`, `.stem`
- `classifier.dfy` (module `Classifier`): `_is_python_command`
- `launch.dfy` (module `Launch`): the cProfile argument vectors and the resolve/fallback decision of `_profile_python_command`
- `timings.dfy` (module `Timings`): raw samples, timing records, a dict as an insertion-ordered sequence of entries
- `ordering.dfy` (module `Ordering`): the sort keys and Python's stable `sorted`
- `normalizer.dfy` (module `Normalizer`): `_extract_timing_data`, both variants
- `normalizer_properties.dfy` (module `NormalizerProperties`): what the normalisers guarantee
- `opaque.dfy` (module `Opaque`): the record of `_profile_bash_command`
- `report.dfy` (module `Report`): the views of `analyze_performance`
- `profiling.dfy` (module `Profiling`): `Profiler.profile_command` and the module-level `profile_command`

## Modelling choices

- **Dicts.** A Python dict is a sequence of `Entry(key, record)` with distinct
  keys, in insertion order.
  - `d[k] = v` is `Upsert`. An existing key keeps its position; a new key is
    appended.
  - A later sample that produces the same key overwrites the earlier one.
- **Sorting.** `sorted` is modelled by a stable insertion sort: only the result and stability matter, not Timsort's steps. Stability holds with
  `reverse=True` as well, so the three descending sorts are stable too.
- **Numbers.** Times are exact `real`s and call counts are `nat`s.
  - The thresholds are 0.001 and 0.005.
  - `top_n` is an unbounded `int` with Python's meaning:
    - the first table's `enumerate`/`break` loop shows nothing for `top_n <= 0`;
    - `[:top_n]` with a negative `top_n` drops entries from the end.
- **Paths.** `Path(p)` is `PurePosixPath`.
  - The name is the last `/`-separated piece that is neither empty nor `.`.
  - The suffix starts at the last dot of the name, provided that dot is
    neither the first nor the last character.
- **Outside inputs.** Whatever the outside world decides is an input, in
  `Profiling.Environment`:
  - the outcome of `which`;
  - the script's first line, or its absence when reading raises;
  - whether cProfile left loadable stats, and the samples in them;
  - how the wall-clock run ended and its elapsed time;
  - the printed execution text.
- **The empty command.** It is classified as opaque. `subprocess.run([])`
  raises before the clock is read again, and the `except Exception` at
  ultralytics_profile/profiler.py:116 catches it. So the model gives an empty
  dict for it.

Some details of the code that a reader might not expect:

- A tool resolved by `which` is profiled when its first line merely contains
  `python` anywhere (ultralytics_profile/profiler.py:59). The line does not
  have to be an interpreter directive.
- A lone `x.py` is not run as an interpreter invocation.
  - The ultralytics variant asks `which` about it
    (ultralytics_profile/profiler.py:49-67).
  - The generic variant runs `python -m cProfile -o <stats> -m x.py`
    (profile/profiler.py:46-48).
- The ultralytics variant drops every file starting with `<` or `~` whatever
  its cost (ultralytics_profile/profiler.py:130-131). The generic variant
  drops a `<` file only when it is cheaper than 1 ms (profile/profiler.py:106-107).
- The 5 ms threshold applies only to the numpy/cv2/PIL/torchvision branch
  (ultralytics_profile/profiler.py:163-167). The torch branch has only the
  keyword filter (ultralytics_profile/profiler.py:156-160), and a torchvision
  file under site-packages takes the torch branch, whose condition comes first.
- Entries whose sort keys tie keep their dict order, because `sorted` is
  stable (ultralytics_profile/profiler.py:186-187, profile/profiler.py:118).
- `top_n` is never checked, so it may be zero or negative
  (ultralytics_profile/profiler.py:204-222).

## Model

| member | source | states |
|---|---|---|
| Text.Find | ultralytics_profile/profiler.py:59 | `p in s` through the first occurrence: a found index is an occurrence and no earlier index is; None exactly when `p` occurs nowhere |
| Text.StartsWith | ultralytics_profile/profiler.py:130 | spells out `s.startswith(p)`: `p` is the first `len(p)` characters of `s` |
| Text.EndsWith | ultralytics_profile/profiler.py:26 | spells out `s.endswith(p)`: `p` is the last `len(p)` characters of `s` |
| Text.Contains | ultralytics_profile/profiler.py:148 | spells out `p in s` as `Find` finding an occurrence |
| Text.ContainsPart | ultralytics_profile/profiler.py:156-163 | a string containing `p + q` contains `p` and contains `q` (so a `torchvision` path contains `torch`) |
| Text.Join | ultralytics_profile/profiler.py:152 | `sep.join([])` is empty and a join starts with its first piece followed by the separator; `JoinSplitOn`, `SplitOnJoin` and `WordsJoin` make it the inverse of the two splits |
| Text.SplitOn | ultralytics_profile/profiler.py:150 | `split(sep)` always gives at least one piece |
| Text.JoinSplitOn | ultralytics_profile/profiler.py:150-152 | joining the pieces of `s.split(sep)` with `sep` gives back `s` |
| Text.SplitOnPiecesFree | ultralytics_profile/profiler.py:150 | no piece of `s.split(sep)` contains `sep` |
| Text.SplitOnJoin | ultralytics_profile/profiler.py:150-152 | for a one-character separator, splitting the join of separator-free pieces gives the pieces back |
| Text.LastPieceAfterSeparator | ultralytics_profile/profiler.py:150 | `split(sep)[-1]` is the text after the last separator, for every separator whose last character occurs nowhere else in it (`/`, `torch/`, `ultralytics/`) |
| Text.IsSpace | ultralytics_profile/profiler.py:239 | spells out the characters `str.isspace` accepts, the ones `str.split()` cuts at |
| Text.FirstPieceBeforeSeparator | ultralytics_profile/profiler.py:161 | `split(sep)[0]` is the text before the first separator, for the same separators |
| Text.Words | ultralytics_profile/profiler.py:239 | every piece of `str.split()` is non-empty and free of whitespace; together with `WordsOfBlank`, `WordsAfterBlank`, `WordsOfWordThenBlank` and `WordsOfWordThenRest` this fixes the split of every string |
| Text.WordsOfBlank | ultralytics_profile/profiler.py:239 | a string of whitespace only, the empty string included, splits into no words |
| Text.WordsAfterBlank | ultralytics_profile/profiler.py:239 | leading whitespace of any length and kind does not change the split |
| Text.WordsOfWordThenBlank | ultralytics_profile/profiler.py:239 | a word followed by any non-empty run of whitespace becomes one piece, and the split continues after the run |
| Text.WordsOfWordThenRest | ultralytics_profile/profiler.py:239 | a word followed by the end of the string or by whitespace becomes one piece, and the split continues with the rest |
| Text.WordsJoin | ultralytics_profile/profiler.py:239 | `" ".join(ws).split() == ws` for words `ws` |
| Text.LowerChar | ultralytics_profile/profiler.py:158 | upper-case ASCII letters become lower-case; every other character is unchanged |
| Text.Lower | ultralytics_profile/profiler.py:158 | `func_name.lower()` keeps the length and lower-cases each character as `LowerChar` does |
| Text.NatToString | ultralytics_profile/profiler.py:153 | `str(line)` is a non-empty string of digits with no leading zero |
| Text.ParseNatToString | ultralytics_profile/profiler.py:153 | reading the decimal text of a line number gives the number back |
| PurePath.Name | profile/profiler.py:109 | the name of a path contains no `/` and is never `.` |
| PurePath.NameInDirectory | profile/profiler.py:109 | the name of `dir + "/" + file` is `file` |
| PurePath.NameOfBareFile | profile/profiler.py:109 | a file name without `/` is its own name |
| PurePath.RFind | ultralytics_profile/profiler.py:30 | spells out `name.rfind('.')`, which pathlib uses for the suffix: the index holds the character and no later index does, or -1 when none does |
| PurePath.Suffix | ultralytics_profile/profiler.py:30 | the suffix is empty, or it starts with a dot, ends the name and is shorter than it; `SuffixAtLastInnerDot` fixes which dot |
| PurePath.SuffixAtLastInnerDot | ultralytics_profile/profiler.py:30 | Python's rule: a suffix is a dot and at least one more character, none of them a dot, so it starts at the last dot of the name; there is none exactly when every dot strictly inside the name has a later dot, which covers names without a dot, with only a leading dot, and ending in a dot |
| PurePath.Stem | ultralytics_profile/profiler.py:153 | the stem is the name with the suffix taken off its end: a prefix of the name that the suffix completes |
| PurePath.StemThenSuffix | ultralytics_profile/profiler.py:153 | stem followed by suffix is the name |
| PurePath.SuffixIsPy | ultralytics_profile/profiler.py:30 | the suffix is `.py` exactly when the name ends in `.py` and is at least four characters long, so `.py` alone has no suffix |
| PurePath.PyFileInDirectory | ultralytics_profile/profiler.py:153 | for `dir/<stem>.py` the name is `<stem>.py`, the stem is `<stem>` and the suffix is `.py` |
| Classifier.Classify | ultralytics_profile/profiler.py:20-35 | the tests in source order: the empty command matches none; the interpreter test wins for every command whose program is an interpreter; the script test holds exactly for a lone non-interpreter token with suffix `.py`; the tool test only for a listed tool |
| Classifier.IsPythonCommand | ultralytics_profile/profiler.py:20-35 | a Python command is never empty; `IsPythonCommandIff` characterises it in both directions |
| Classifier.IsPythonCommandIff | ultralytics_profile/profiler.py:20-35 | a command is Python exactly when it is non-empty and its first token is `python3` or ends in `python`, or it is a lone token with suffix `.py`, or its first token is one of the five tools; the generic variant runs the same code at profile/profiler.py:20-35 |
| Classifier.InterpreterIff | ultralytics_profile/profiler.py:26 | the interpreter test is `python3` or a name ending in `python`; `python` itself needs no separate case |
| Classifier.EmptyIsOpaque | ultralytics_profile/profiler.py:22-23 | the empty command is not a Python command |
| Classifier.ClassifierExamples | tests/test_profiler.py:19-24 | `python script.py`, `python3 x.py`, `/usr/bin/python` and `yolo predict` are Python commands; `ls -la` is not |
| Classifier.ScriptExamples | ultralytics_profile/profiler.py:30-31 | `x.py` alone is a script; `x.py --fast` and `.py` are opaque |
| Launch.Argv | ultralytics_profile/profiler.py:46 | a vector is the five header tokens `<python> -m cProfile -o <stats>` followed by the target tokens; `ParseArgv` inverts it |
| Launch.ParseArgv | ultralytics_profile/profiler.py:46 | a vector is read as a cProfile invocation exactly when it has the `-m cProfile -o` header |
| Launch.ParseArgvOfArgv | ultralytics_profile/profiler.py:46 | parsing the vector of an invocation gives the invocation back |
| Launch.ArgvOfParseArgv | ultralytics_profile/profiler.py:46 | every vector the parser accepts is the vector of what it parsed |
| Launch.DirectArgv | ultralytics_profile/profiler.py:44-46 | the direct form runs cProfile with the user's interpreter, into the stats file, on `cmd[1:]` |
| Launch.ModuleArgv | profile/profiler.py:46-48 | the generic tool form runs the current interpreter's cProfile into the stats file on `-m` and the whole command |
| Launch.ScriptArgv | ultralytics_profile/profiler.py:61 | the resolved form runs the current interpreter's cProfile on the script path and `cmd[1:]` |
| Launch.UserTokensAreSuffix | profile/profiler.py:44-48 | the user's tokens end every vector unchanged |
| Launch.RichPlan | ultralytics_profile/profiler.py:44-71 | the ultralytics variant profiles exactly when the program is an interpreter, or `which` found a file whose first line contains `python`; it says which invocation results in each case |
| Launch.PlainArgv | profile/profiler.py:44-48 | the generic variant always profiles: directly for an interpreter, as a module otherwise |
| Launch.VariantsAgreeOnInterpreters | profile/profiler.py:44-45 | both variants launch an interpreter command identically, whatever `which` would say |
| Launch.LoneScriptExample | ultralytics_profile/profiler.py:49-67 | a lone `x.py` that `which` cannot find falls back in one variant and runs as module `x.py` in the other |
| Timings.AvgTime | ultralytics_profile/profiler.py:180 | the average times the call count is the cumulative time; with no calls it is 0 |
| Timings.Lookup | ultralytics_profile/profiler.py:176 | a found record is stored under the key; nothing is found exactly when the key is absent |
| Timings.LookupEntry | ultralytics_profile/profiler.py:176 | in a dict, looking up an entry's key finds its record |
| Timings.Upsert | ultralytics_profile/profiler.py:176 | after `d[k] = r`, `k` finds `r`, every other key finds what it found before, and the key set gains `k` |
| Timings.UpsertKeepsPosition | ultralytics_profile/profiler.py:176 | assigning to an existing key leaves the key order unchanged |
| Timings.UpsertAppends | ultralytics_profile/profiler.py:176 | assigning to a new key appends it |
| Timings.UpsertKeepsDistinct | ultralytics_profile/profiler.py:176 | assignment keeps keys distinct |
| Timings.UpsertEntries | ultralytics_profile/profiler.py:176 | after assignment every entry is the new one or an old one |
| Timings.LookupPermutation | ultralytics_profile/profiler.py:186 | reordering a dict's entries changes no lookup |
| Ordering.Sort | ultralytics_profile/profiler.py:186-187 | `sorted` gives a permutation with the same keys, ordered by the sort key, keeping keys distinct |
| Ordering.SortIsStable | profile/profiler.py:118 | entries with equal sort keys keep their relative order |
| Ordering.IsPriority | ultralytics_profile/profiler.py:187 | spells out `x[1].get("is_ultralytics", False)`: a record is in the first tier only when the flag is present and true |
| Ordering.Precedes | ultralytics_profile/profiler.py:186-187 | spells out the four sort keys as a no-greater-key test: `(not is_ultralytics, -cumulative_time)` ascending here, and descending `cumulative_time` (profile/profiler.py:118), `call_count` (:212) and `total_time` (:222) |
| Normalizer.FirstPackage | ultralytics_profile/profiler.py:165 | `next(...)` gives the first listed package the file name contains, and None exactly when it contains none |
| Normalizer.IsInternalFile | ultralytics_profile/profiler.py:130 | spells out `filename.startswith('<') or filename.startswith('~')` |
| Normalizer.IsBootstrap | ultralytics_profile/profiler.py:134-140 | spells out `any(pattern in func_name or pattern in filename ...)` over the seventeen skip patterns, in source order |
| Normalizer.IsTorchCompute | ultralytics_profile/profiler.py:158-159 | spells out `any(keyword in func_name.lower() ...)` over the seven torch keywords |
| Normalizer.LibraryOf | ultralytics_profile/profiler.py:148-171 | the first passing branch wins: Ultralytics exactly when the name contains `ultralytics`; Torch exactly when it does not but contains `torch` and `site-packages`; Package exactly when neither holds and some listed package occurs, naming the first listed one; Other exactly when none of these holds |
| Normalizer.UltralyticsNamespace | ultralytics_profile/profiler.py:148-155 | an ultralytics key prefix starts with `ultralytics.` and ends with `.`; `UltralyticsNamespaceOfPath` fixes the directories in between |
| Normalizer.TorchNamespace | ultralytics_profile/profiler.py:161-162 | a torch key prefix starts with `torch.` and ends with `.`; three lemmas fix the part in between for every shape of name: `TorchNamespaceOfPath`, `TorchNamespaceOfDirectFile` and `TorchNamespaceWithoutTorchDir` |
| Normalizer.Namespace | ultralytics_profile/profiler.py:147-171 | the prefix is empty exactly for the user-script branch; otherwise it ends with `.` and is `ultralytics.…`, `torch.…` or `<pkg>.` |
| Normalizer.CallSite | ultralytics_profile/profiler.py:153-171 | spells out the `:{func_name}:{line_num}` tail shared by every key of both variants (profile/profiler.py:109) |
| Normalizer.RichEntry | ultralytics_profile/profiler.py:126-183 | a sample is kept exactly when it passes the file, skip-pattern, 1 ms, torch-keyword and 5 ms filters; the record copies the sample's figures with the guarded average and the ultralytics flag, and the key ends with stem and call site |
| Normalizer.PlainEntry | profile/profiler.py:102-116 | a sample is dropped exactly when its file starts with `<` and it is cheaper than 1 ms; the record copies the sample's figures with the guarded average |
| Normalizer.Collect | ultralytics_profile/profiler.py:124-183 | the loop's dict has distinct keys and each entry comes from some sample |
| Normalizer.CollectKeepsLastWrite | ultralytics_profile/profiler.py:176-183 | a key holds the record of the last sample stored under it |
| Normalizer.CollectStepLookup | ultralytics_profile/profiler.py:176-183 | one more sample changes what key `k` holds only when that sample is stored under `k`, and then `k` holds its record |
| Normalizer.CollectOmitsUnwritten | ultralytics_profile/profiler.py:124-183 | a key no sample was stored under is absent |
| Normalizer.RichTimings | ultralytics_profile/profiler.py:185-187 | the result permutes the de-duplicated dict, puts every ultralytics entry first, and orders each tier by cumulative time, descending |
| Normalizer.PlainTimings | profile/profiler.py:118 | the result permutes the de-duplicated dict and is ordered by cumulative time, descending |
| NormalizerProperties.RichTimingsFromSamples | ultralytics_profile/profiler.py:126-183 | every returned entry is the entry of some sample |
| NormalizerProperties.RichEntryPassesFilters | ultralytics_profile/profiler.py:129-167 | a kept record has no `<` or `~` file, no skip pattern in its file name, at least 1 ms, and at least 5 ms in a package branch |
| NormalizerProperties.RichEntryDerivedFields | ultralytics_profile/profiler.py:174-182 | a kept record has the guarded average and is flagged exactly when its file name contains `ultralytics` |
| NormalizerProperties.RichTimingsRecords | ultralytics_profile/profiler.py:129-187 | every record the ultralytics normaliser returns passes the filters and has consistent derived fields |
| NormalizerProperties.TorchKeepsOnlyCompute | ultralytics_profile/profiler.py:156-160 | a kept torch sample's lower-cased function name contains a compute keyword |
| NormalizerProperties.RichKeyPrefix | ultralytics_profile/profiler.py:147-171 | keys start with `ultralytics.` or `torch.` in those branches, are `<pkg>.<stem><call site>` in a package branch and `<stem><call site>` otherwise |
| NormalizerProperties.TorchvisionInSitePackagesIsTorch | ultralytics_profile/profiler.py:156-168 | a torchvision file under site-packages takes the torch branch, which comes first: it is kept only with a compute keyword, its key starts with `torch.`, and an absolute such name without `torch/` gets the prefix `torch..` |
| NormalizerProperties.UltralyticsNamespaceWithoutSlash | ultralytics_profile/profiler.py:148-155 | without `ultralytics/` in the name, the dotted module path is built from the whole file name |
| NormalizerProperties.UltralyticsNamespaceOfParts | ultralytics_profile/profiler.py:150-155 | the prefix is `ultralytics.` followed by the dotted pieces after the last `ultralytics/` except the final one, or just `ultralytics.` when there is one piece |
| NormalizerProperties.UltralyticsNamespaceOfPath | ultralytics_profile/profiler.py:148-155 | for `<pre>ultralytics/<d1>/.../<dk>/<file>` with no later `ultralytics/` and slash-free pieces, the prefix is `ultralytics.<d1>.….<dk>.`, or `ultralytics.` when the file sits directly below |
| NormalizerProperties.TorchNamespaceOfPath | ultralytics_profile/profiler.py:161-162 | for `<pre>torch/<segment>/<rest>` with no later `torch/` and a slash-free segment, the prefix is `torch.<segment>.` |
| NormalizerProperties.TorchNamespaceOfDirectFile | ultralytics_profile/profiler.py:161-162 | for a file directly below the last `torch/`, the prefix is `torch.<file>.`, the whole file name |
| NormalizerProperties.TorchNamespaceWithoutTorchDir | ultralytics_profile/profiler.py:161-162 | for an absolute name without `torch/`, the whole name is split on `/`, its first piece is empty and the prefix is `torch..` |
| NormalizerProperties.TorchBranchWithoutTorchDir | ultralytics_profile/profiler.py:156-162 | a torch-branch absolute name without `torch/` is namespaced `torch..` |
| NormalizerProperties.KeyLineRoundTrip | ultralytics_profile/profiler.py:153-171 | the text after a key's last `:` is all digits and reads back as the sample's line |
| NormalizerProperties.EntryKeyEndsWithCallSite | ultralytics_profile/profiler.py:153-171 | every key of either variant ends in `:<func_name>:<line>` |
| NormalizerProperties.FileNameVersusStem | profile/profiler.py:109 | for `dir/<stem>.py` the generic key keeps `.py` and the ultralytics key ends with the bare stem |
| NormalizerProperties.PlainKeepsAllButCheapBuiltins | profile/profiler.py:105-116 | every returned entry comes from a sample that is not a cheap built-in, keyed by file name and call site; every sample whose file does not start with `<` has its key in the result |
| NormalizerProperties.TimingsLastWriteWins | ultralytics_profile/profiler.py:176-187 | after sorting, a key holds the record of the last sample stored under it, and is absent exactly when no sample was stored under it |
| Opaque.OpaqueKey | ultralytics_profile/profiler.py:105 | the key ends in `:total_execution:0`, preceded by the space-joined command |
| Opaque.OpaqueTimings | ultralytics_profile/profiler.py:94-120 | at most one entry, present exactly for a finished non-empty command, with 1 call and cumulative = self = average = elapsed time, file `bash_command` |
| Opaque.OpaqueTimingsWellFormed | ultralytics_profile/profiler.py:104-112 | the opaque dict has distinct keys and its record keeps the average rule |
| Opaque.OpaqueKeyRecoversCommand | ultralytics_profile/profiler.py:105 | for word tokens, splitting the key text before `:total_execution:0` on whitespace gives the command back |
| Report.DisplayKey | ultralytics_profile/profiler.py:208 | display keys have at most 60 characters; short keys are unchanged; long keys become exactly 60 characters, the first 57 of the key then `...` |
| Report.DisplayKeyIdempotent | ultralytics_profile/profiler.py:208 | truncating a display key again changes nothing |
| Report.Label | ultralytics_profile/profiler.py:208 | spells out the printed label: the display key here, the whole key in the generic variant (profile/profiler.py:138) |
| Report.SelfPercent | ultralytics_profile/profiler.py:228-231 | with positive cumulative time, the percentage times the cumulative time is 100 times the self time; otherwise it is 0 |
| Report.SelfPercentBounded | ultralytics_profile/profiler.py:228-231 | when self time lies between 0 and the cumulative time, the percentage lies between 0 and 100 |
| Report.SliceLength | ultralytics_profile/profiler.py:212 | `xs[:n]` keeps `min(n, len)` elements for `n >= 0` and `max(len + n, 0)` for negative `n` |
| Report.Take | ultralytics_profile/profiler.py:212 | `xs[:n]` is the prefix of `xs` with Python's slice length |
| Report.EnumerateCount | ultralytics_profile/profiler.py:204-206 | the breaking loop visits nothing for `top_n <= 0` and `min(top_n, len)` entries otherwise |
| Report.AnalysisOf | ultralytics_profile/profiler.py:189-233 | the execution text is always shown; the tables are replaced by the notice exactly when the dict is empty; only the ultralytics variant has a self-time table |
| Report.RowsOf | ultralytics_profile/profiler.py:217-219 | reference definition of the printed rows: one labelled row per entry, in order; `ViewRows` and `SlowestRows` are proved to produce it |
| Report.SelfRowsOf | ultralytics_profile/profiler.py:227-233 | reference definition of the self-time rows: display key, record and guarded percentage per entry, in order; `SelfViewRows` is proved to produce it |
| Report.SlowestView | ultralytics_profile/profiler.py:204-209 | the slowest table has the loop's count of rows, and each is the dict entry at that position with its printed label |
| Report.MostCalled | ultralytics_profile/profiler.py:212 | the most-called entries number `len(timings[:top_n])` and are ordered by call count, descending |
| Report.BySelfTime | ultralytics_profile/profiler.py:222 | the self-time entries number `len(timings[:top_n])` and are ordered by self time, descending |
| Report.ViewSizes | ultralytics_profile/profiler.py:204-222 | the slowest view has the breaking loop's count of rows and the sliced views `len(xs[:top_n])` rows |
| Report.ViewSizesNonNegative | profile/profiler.py:135-141 | for `top_n >= 0` every view has `min(top_n, len(timings))` rows |
| Report.SlowestInStoredOrder | profile/profiler.py:135-138 | the slowest view lists the dict's first entries in stored order |
| Report.MostCalledOrdered | ultralytics_profile/profiler.py:212 | the most-called view is ordered by call count, descending |
| Report.BySelfTimeOrdered | ultralytics_profile/profiler.py:222 | the self-time view is ordered by self time, descending |
| Report.MostCalledAreTop | profile/profiler.py:141 | the most-called view is drawn from the dict, and no entry left out was called more often than an entry shown |
| Report.BySelfTimeAreTop | ultralytics_profile/profiler.py:222 | the self-time view is drawn from the dict, and no entry left out has more self time than an entry shown |
| Report.NegativeTopNExample | ultralytics_profile/profiler.py:204-212 | with `top_n = -1` and three entries, the slowest view is empty while the most-called view has two rows |
| Report.SlowestRows | ultralytics_profile/profiler.py:204-209 | the loop with `break` produces the rows of the slowest view |
| Report.ViewRows | ultralytics_profile/profiler.py:217-219 | the loop over a view produces one labelled row per entry |
| Report.SelfViewRows | ultralytics_profile/profiler.py:227-233 | the loop with the guarded division produces the self-time rows |
| Report.AnalyzePerformance | ultralytics_profile/profiler.py:189-233 | the method's tables are those of the reference `AnalysisOf`; for the generic variant (profile/profiler.py:120-147) keys are shown whole and there is no self-time table |
| Profiling.ProfiledTimings | ultralytics_profile/profiler.py:77-86 | loaded stats give the normalised dict; a missing file or an exception gives an empty one |
| Profiling.ProfileCommand | ultralytics_profile/profiler.py:13-18 | only Python commands are instrumented; the generic variant instruments exactly those; the ultralytics variant exactly those that are interpreter calls or resolve to a python script; the dict comes from the stats or from the wall clock accordingly |
| Profiling.ProfileCommandWellFormed | ultralytics_profile/profiler.py:13-18 | every path returns a dict with distinct keys whose records all keep the average rule |
| Profiling.TimingsAverageConsistent | profile/profiler.py:114 | every record of either normaliser keeps the average rule |
| Profiling.InstrumentedArgv | ultralytics_profile/profiler.py:44-61 | an instrumented run writes to the stats file, with the user's interpreter for interpreter commands and the running one otherwise |
| Profiling.CommandTokens | ultralytics_profile/profiler.py:239 | a list is used as given; a string becomes whitespace-free words, split as `Text.Words` and its lemmas fix, as `WhitespaceInCommandLine` shows |
| Profiling.CommandLineOfTokens | ultralytics_profile/profiler.py:239 | the string of space-joined words and the word list give the same tokens |
| Profiling.WhitespaceInCommandLine | ultralytics_profile/profiler.py:239 | leading and trailing blanks vanish and a run of spaces and tabs between two words cuts once |
| Profiling.ProfileSession | ultralytics_profile/profiler.py:236-244 | `profile_command` returns a dict with distinct keys whose records keep the average rule; the report shows the execution text, and the notice exactly when the dict is empty; with the default `top_n` every table has at most 20 rows (10 in the generic variant), the slowest exactly as many as the loop visits |
| Profiling.DefaultTopN | ultralytics_profile/profiler.py:236 | spells out the default `top_n` of `profile_command`: 20 here and 10 in the generic variant (profile/profiler.py:150) |
| Profiling.CommandLineMatchesTokenList | ultralytics_profile/profiler.py:236-241 | a command line and the list of its words give the same session |
| Profiling.OpaqueLineKey | ultralytics_profile/profiler.py:239-241 | an opaque command line is keyed by its words joined with single spaces |

## Left out

- Process execution is not modelled. This covers `subprocess.run`, the 300 s timeout, capturing stdout and stderr, and the exception handlers around them. Their outcomes are inputs in `Profiling.Environment`.
- The `which` lookup and opening the script are not modelled. Their outcomes are inputs: the path `which` printed, already stripped, and the first line or its absence.
- cProfile and pstats are not modelled. This covers the temporary stats file, its creation, loading and deletion. A loaded file is its sequence of samples.
- `time.time()` is not modelled. The elapsed time is an input.
- Printing is left out. The format specifiers, column padding and headers are console formatting. The report is the rows it would print.
- The execution text (`Exit code: ...`, `Error: ...`, `Command execution timed out`) is taken as an input. It comes from the process.
- Floating point is not modelled. Times are exact reals, so nothing is claimed about IEEE rounding or `:.3f` formatting.
- Text.LowerChar: lower-cases only ASCII letters, while Python's `lower()` also maps other Unicode letters. Every torch keyword is ASCII. A non-ASCII upper-case letter in a function name could match a keyword only under full Unicode case mapping.
- NormalizerProperties.RichKeyPrefix: states only the leading `ultralytics.` or `torch.` for those branches. The part in between is stated by separate lemmas: `UltralyticsNamespaceOfPath` and `UltralyticsNamespaceWithoutSlash` for ultralytics names, and `TorchNamespaceOfPath`, `TorchNamespaceOfDirectFile` and `TorchNamespaceWithoutTorchDir` for torch names.
- profile/cli.py is not part of this model. It is argument joining and `sys.exit`.
- examples/example.py and examples/run.py are not part of this model. They are demonstration workloads.
- ultralytics_profile/__init__.py is not part of this model. It only re-exports names.

=== FILE: classifier.dfy ===
/**
 * The command classifier, `_is_python_command`, identical in both profiler
 * variants: does the command run Python code that cProfile can instrument,
 * or is it an opaque program that can only be timed as a whole?
 */
module Classifier {
  import opened Text
  import opened PurePath

  /** The command-line tools treated as Python programs. */
  const PythonTools: set<string> := {"yolo", "pip", "pytest", "black", "flake8"}

  /** The program is a Python interpreter: "python", "python3", or any name ending in "python". */
  predicate IsInterpreter(program: string) {
    program == "python" || program == "python3" || EndsWith(program, "python")
  }

  /** Which test of the classifier accepted the command, if any. */
  datatype Kind = DirectInterpreter | ExplicitScript | KnownTool | Opaque

  /** The tests of `_is_python_command`, in the order it applies them. */
  function Classify(command: seq<string>): (k: Kind)
    ensures |command| == 0 ==> k == Opaque
    ensures k == DirectInterpreter <==> |command| > 0 && IsInterpreter(command[0])
    ensures k == ExplicitScript <==> |command| == 1 && !IsInterpreter(command[0]) && Suffix(command[0]) == ".py"
    ensures k == KnownTool ==> command[0] in PythonTools
  {
    if |command| == 0 then Opaque
    else if IsInterpreter(command[0]) then DirectInterpreter
    else if |command| == 1 && Suffix(command[0]) == ".py" then ExplicitScript
    else if command[0] in PythonTools then KnownTool
    else Opaque
  }

  /** `_is_python_command`: some test accepted the command. */
  predicate IsPythonCommand(command: seq<string>)
    ensures IsPythonCommand(command) ==> |command| > 0
  {
    Classify(command) != Opaque
  }

  /**
   * The classifier in plain terms: a non-empty command whose program is
   * "python3" or ends in "python" (which covers "python" itself), or a lone
   * token whose path suffix is ".py" (see `SuffixIsPy` for what that means of
   * the file name), or whose program is one of the five listed tools.
   */
  lemma {:induction false} IsPythonCommandIff(command: seq<string>)
    ensures IsPythonCommand(command) <==>
      |command| > 0 &&
      (|| command[0] == "python3"
       || EndsWith(command[0], "python")
       || (|command| == 1 && Suffix(command[0]) == ".py")
       || command[0] in {"yolo", "pip", "pytest", "black", "flake8"})
  {
    if |command| > 0 {
      InterpreterIff(command[0]);
    }
  }

  /** "python" itself already ends in "python", so only "python3" needs its own test. */
  lemma InterpreterIff(program: string)
    ensures IsInterpreter(program) <==> program == "python3" || EndsWith(program, "python")
  {
    assert EndsWith("python", "python");
  }

  /** The empty command is not a Python command. */
  lemma EmptyIsOpaque()
    ensures !IsPythonCommand([])
  {
  }

  /** Examples: interpreter invocations, a listed tool, and an ordinary program. */
  lemma ClassifierExamples()
    ensures Classify(["python", "script.py"]) == DirectInterpreter
    ensures Classify(["python3", "x.py"]) == DirectInterpreter
    ensures Classify(["/usr/bin/python"]) == DirectInterpreter
    ensures Classify(["yolo", "predict"]) == KnownTool
    ensures !IsPythonCommand(["ls", "-la"])
  {
    assert EndsWith("/usr/bin/python", "python") by {
      assert "/usr/bin/python"[9..] == "python";
    }
    assert !EndsWith("ls", "python");
  }

  /**
   * Examples of the script test: a lone "x.py" is a script, but ".py" alone has
   * no suffix, and a script followed by arguments matches no test.
   */
  lemma ScriptExamples()
    ensures Classify(["x.py"]) == ExplicitScript
    ensures Classify(["x.py", "--fast"]) == Opaque
    ensures Classify([".py"]) == Opaque
  {
    LoneScript();
    ScriptWithArguments();
    BareSuffix();
  }

  lemma LoneScript()
    ensures Classify(["x.py"]) == ExplicitScript
  {
    assert Suffix("x.py") == ".py" by {
      assert '/' !in "x.py";
      ContainsChar("x.py", '/');
      NameOfBareFile("x.py");
      SuffixIsPy("x.py");
    }
    assert !EndsWith("x.py", "python");
  }

  lemma ScriptWithArguments()
    ensures Classify(["x.py", "--fast"]) == Opaque
  {
    assert !EndsWith("x.py", "python");
    DottedIsNoTool("x.py");
  }

  lemma BareSuffix()
    ensures Classify([".py"]) == Opaque
  {
    assert Suffix(".py") != ".py" by {
      assert '/' !in ".py";
      ContainsChar(".py", '/');
      NameOfBareFile(".py");
      SuffixIsPy(".py");
    }
    assert !EndsWith(".py", "python");
    DottedIsNoTool(".py");
  }

  /** No listed tool has a dot in its name. */
  lemma DottedIsNoTool(program: string)
    requires '.' in program
    ensures program !in PythonTools
  {
  }
}

=== FILE: launch.dfy ===
/**
 * How a Python command is put under cProfile: the argument vector of
 * `python -m cProfile -o <stats> ...`, and, in the ultralytics variant, the
 * decision to resolve a command-line tool to its script or to fall back to
 * timing the command as an opaque program.
 *
 * The outcomes of the `which` lookup and of reading the script's first line
 * are inputs here; the processes themselves are not modelled.
 */
module Launch {
  import opened Wrappers
  import opened Text
  import opened Classifier

  /** `<python> -m cProfile -o <statsFile> <target...>` */
  datatype Invocation = Invocation(python: string, statsFile: string, target: seq<string>)

  /** The five tokens that start every profiling argument vector. */
  function Header(python: string, statsFile: string): seq<string> {
    [python, "-m", "cProfile", "-o", statsFile]
  }

  /** The argument vector that runs an invocation. */
  function Argv(inv: Invocation): (argv: seq<string>)
    ensures |argv| == 5 + |inv.target|
    ensures argv[..5] == Header(inv.python, inv.statsFile)
    ensures argv[5..] == inv.target
  {
    Header(inv.python, inv.statsFile) + inv.target
  }

  /** Reads an argument vector back as a cProfile invocation, if it is one. */
  function ParseArgv(argv: seq<string>): (inv: Option<Invocation>)
    ensures inv.Some? <==> |argv| >= 5 && argv[1..4] == ["-m", "cProfile", "-o"]
  {
    if |argv| >= 5 && argv[1..4] == ["-m", "cProfile", "-o"] then
      Some(Invocation(argv[0], argv[4], argv[5..]))
    else None
  }

  /** Parsing the argument vector of an invocation gives the invocation back. */
  lemma ParseArgvOfArgv(inv: Invocation)
    ensures ParseArgv(Argv(inv)) == Some(inv)
  {
    var argv := Argv(inv);
    assert argv[1..4] == Header(inv.python, inv.statsFile)[1..4];
  }

  /** Every vector the parser accepts is the argument vector of what it parsed. */
  lemma ArgvOfParseArgv(argv: seq<string>)
    requires ParseArgv(argv).Some?
    ensures Argv(ParseArgv(argv).value) == argv
  {
    var inv := ParseArgv(argv).value;
    assert argv[1] == "-m" && argv[2] == "cProfile" && argv[3] == "-o" by {
      assert argv[1..4][0] == argv[1] && argv[1..4][1] == argv[2] && argv[1..4][2] == argv[3];
    }
    assert Header(inv.python, inv.statsFile) == argv[..5];
    assert argv == argv[..5] + argv[5..];
  }

  /**
   * The direct form, for an interpreter invocation: the user's interpreter
   * profiles the user's arguments, `[cmd0, "-m", "cProfile", "-o", stats] + cmd[1:]`.
   */
  function DirectArgv(command: seq<string>, statsFile: string): (argv: seq<string>)
    requires |command| > 0
    ensures ParseArgv(argv) == Some(Invocation(command[0], statsFile, command[1..]))
  {
    ParseArgvOfArgv(Invocation(command[0], statsFile, command[1..]));
    Argv(Invocation(command[0], statsFile, command[1..]))
  }

  /**
   * The tool form of the generic variant: the running interpreter profiles
   * the tool as a module, `[sys.executable, "-m", "cProfile", "-o", stats, "-m"] + cmd`.
   */
  function ModuleArgv(executable: string, statsFile: string, command: seq<string>): (argv: seq<string>)
    ensures ParseArgv(argv) == Some(Invocation(executable, statsFile, ["-m"] + command))
  {
    ParseArgvOfArgv(Invocation(executable, statsFile, ["-m"] + command));
    Argv(Invocation(executable, statsFile, ["-m"] + command))
  }

  /**
   * The tool form of the ultralytics variant: the running interpreter
   * profiles the tool's resolved script with the tool's arguments,
   * `[sys.executable, "-m", "cProfile", "-o", stats, script_path] + cmd[1:]`.
   */
  function ScriptArgv(executable: string, statsFile: string, scriptPath: string, command: seq<string>): (argv: seq<string>)
    requires |command| > 0
    ensures ParseArgv(argv) == Some(Invocation(executable, statsFile, [scriptPath] + command[1..]))
  {
    ParseArgvOfArgv(Invocation(executable, statsFile, [scriptPath] + command[1..]));
    Argv(Invocation(executable, statsFile, [scriptPath] + command[1..]))
  }

  /**
   * Whatever the form, the user's own tokens appear unchanged at the end of
   * the vector: all but the program name in the direct and script forms,
   * all of them in the module form.
   */
  lemma UserTokensAreSuffix(executable: string, statsFile: string, scriptPath: string, command: seq<string>)
    requires |command| > 0
    ensures var argv := DirectArgv(command, statsFile);
      argv[0] == command[0] && argv[|argv| - (|command| - 1)..] == command[1..]
    ensures var argv := ModuleArgv(executable, statsFile, command);
      argv[|argv| - |command|..] == command
    ensures var argv := ScriptArgv(executable, statsFile, scriptPath, command);
      argv[|argv| - (|command| - 1)..] == command[1..]
  {
  }

  /** The outcome of the launch decision of the ultralytics variant. */
  datatype Plan = Resolved(argv: seq<string>) | Fallback

  /**
   * `_profile_python_command` of the ultralytics variant, up to running
   * the profiler. An interpreter command is profiled directly. Otherwise
   * `which` is asked for the program (None: it failed or raised), and the
   * first line of the file it names is read (None: reading raised). Only a
   * found script whose first line mentions "python" is profiled; every other
   * outcome falls back to timing the command as a whole.
   */
  function RichPlan(executable: string, statsFile: string, command: seq<string>,
                    which: Option<string>, firstLine: Option<string>): (p: Plan)
    requires |command| > 0
    ensures p.Resolved? <==>
      IsInterpreter(command[0]) || (which.Some? && firstLine.Some? && Contains(firstLine.value, "python"))
    ensures p.Resolved? && IsInterpreter(command[0]) ==>
      ParseArgv(p.argv) == Some(Invocation(command[0], statsFile, command[1..]))
    ensures p.Resolved? && !IsInterpreter(command[0]) ==>
      ParseArgv(p.argv) == Some(Invocation(executable, statsFile, [which.value] + command[1..]))
  {
    if IsInterpreter(command[0]) then Resolved(DirectArgv(command, statsFile))
    else
      match which
      case None => Fallback
      case Some(scriptPath) =>
        match firstLine
        case None => Fallback
        case Some(line) =>
          if Contains(line, "python") then Resolved(ScriptArgv(executable, statsFile, scriptPath, command))
          else Fallback
  }

  /** `_profile_python_command` of the generic variant: it always profiles. */
  function PlainArgv(executable: string, statsFile: string, command: seq<string>): (argv: seq<string>)
    requires |command| > 0
    ensures IsInterpreter(command[0]) ==>
      ParseArgv(argv) == Some(Invocation(command[0], statsFile, command[1..]))
    ensures !IsInterpreter(command[0]) ==>
      ParseArgv(argv) == Some(Invocation(executable, statsFile, ["-m"] + command))
  {
    if IsInterpreter(command[0]) then DirectArgv(command, statsFile)
    else ModuleArgv(executable, statsFile, command)
  }

  /**
   * The two variants launch an interpreter command identically; they differ
   * only on tools and scripts.
   */
  lemma VariantsAgreeOnInterpreters(executable: string, statsFile: string, command: seq<string>,
                                    which: Option<string>, firstLine: Option<string>)
    requires |command| > 0 && IsInterpreter(command[0])
    ensures RichPlan(executable, statsFile, command, which, firstLine) ==
      Resolved(PlainArgv(executable, statsFile, command))
  {
  }

  /**
   * A lone script "x.py" that `which` cannot find: the ultralytics variant
   * gives up on profiling it, while the generic variant asks the interpreter
   * to run a module named "x.py".
   */
  lemma LoneScriptExample(executable: string, statsFile: string, firstLine: Option<string>)
    ensures Classify(["x.py"]) == ExplicitScript
    ensures RichPlan(executable, statsFile, ["x.py"], None, firstLine) == Fallback
    ensures PlainArgv(executable, statsFile, ["x.py"]) ==
      [executable, "-m", "cProfile", "-o", statsFile, "-m", "x.py"]
  {
    ScriptExamples();
    assert !EndsWith("x.py", "python");
  }
}

=== FILE: normalizer.dfy ===
/**
 * The sample normaliser, `_extract_timing_data`, in its two variants:
 * - Rich (the ultralytics profiler): drops built-ins, import and JIT
 *   machinery and cheap samples, namespaces keys by library, keeps only
 *   compute functions from torch, raises the bar for other libraries, flags
 *   ultralytics records and sorts them first;
 * - Plain (the generic profiler): drops only cheap built-ins, keys by file
 *   name, sorts by cumulative time.
 * Each sample becomes at most one entry; a later entry with the same key
 * overwrites an earlier one (`timings[key] = ...`), then the dict is sorted.
 */
module Normalizer {
  import opened Wrappers
  import opened Text
  import opened PurePath
  import opened Timings
  import opened Ordering

  /** Samples cheaper than this (cumulative seconds) are noise. */
  const MinCumulativeTime: real := 0.001

  /** The higher bar for numpy, cv2, PIL and torchvision samples. */
  const MinLibraryCumulativeTime: real := 0.005

  /** Substrings of a function or file name that mark import, compilation or JIT machinery. */
  const SkipPatterns: seq<string> := [
    "<module>", "__import__", "_handle_fromlist", "get_code", "_find_and_load",
    "_jit_internal", "lazy", "_dynamo", "_ops", "triton_kernel",
    "importlib", "marshal", "compile_bytecode", "__build_class__",
    "create_dynamic", "open_code", "genexpr"]

  /** Substrings of a lower-cased torch function name that mark compute work. */
  const TorchKeywords: seq<string> := ["forward", "__call__", "conv", "relu", "pool", "norm", "activation"]

  /** Secondary libraries, in the order they are tried. */
  const Packages: seq<string> := ["numpy", "cv2", "PIL", "torchvision"]

  /** Built-ins and other entries that are not real files: names starting with "<" or "~". */
  predicate IsInternalFile(filename: string) {
    StartsWith(filename, "<") || StartsWith(filename, "~")
  }

  /** Some skip pattern occurs in the function name or in the file name. */
  predicate IsBootstrap(s: RawSample) {
    exists p | p in SkipPatterns :: Contains(s.funcName, p) || Contains(s.filename, p)
  }

  /** The lower-cased function name holds one of the torch compute keywords. */
  predicate IsTorchCompute(funcName: string) {
    exists k | k in TorchKeywords :: Contains(Lower(funcName), k)
  }

  /** `next(pkg for pkg in pkgs if pkg in filename)`, None when no package occurs. */
  function FirstPackage(filename: string, pkgs: seq<string>): (r: Option<string>)
    ensures r.Some? ==> r.value in pkgs && Contains(filename, r.value)
    ensures r.None? <==> forall p | p in pkgs :: !Contains(filename, p)
    ensures r.Some? ==> exists i | 0 <= i < |pkgs| :: pkgs[i] == r.value && forall j | 0 <= j < i :: !Contains(filename, pkgs[j])
    decreases |pkgs|
  {
    if |pkgs| == 0 then None
    else if Contains(filename, pkgs[0]) then Some(pkgs[0])
    else
      var r := FirstPackage(filename, pkgs[1..]);
      assert forall p | p in pkgs :: p == pkgs[0] || p in pkgs[1..];
      if r.Some? then
        var i :| 0 <= i < |pkgs[1..]| && pkgs[1..][i] == r.value && forall j | 0 <= j < i :: !Contains(filename, pkgs[1..][j]);
        assert pkgs[i + 1] == r.value;
        r
      else r
  }

  /** The branch of key construction a file falls into, tried in this order. */
  datatype Library = Ultralytics | Torch | Package(name: string) | Other

  /**
   * The first branch whose test the file name passes: "ultralytics" anywhere;
   * otherwise "torch" together with "site-packages"; otherwise the first listed
   * package the name contains; otherwise none.
   */
  function LibraryOf(filename: string): (lib: Library)
    ensures lib == Ultralytics <==> Contains(filename, "ultralytics")
    ensures lib == Torch <==>
      !Contains(filename, "ultralytics") && Contains(filename, "torch") && Contains(filename, "site-packages")
    ensures lib.Package? <==> lib != Ultralytics && lib != Torch && FirstPackage(filename, Packages).Some?
    ensures lib.Package? ==> FirstPackage(filename, Packages) == Some(lib.name)
    ensures lib.Package? ==> lib.name in Packages && Contains(filename, lib.name)
    ensures lib == Other <==> lib != Ultralytics && lib != Torch && forall p | p in Packages :: !Contains(filename, p)
  {
    if Contains(filename, "ultralytics") then Ultralytics
    else if Contains(filename, "torch") && Contains(filename, "site-packages") then Torch
    else
      match FirstPackage(filename, Packages)
      case Some(p) => Package(p)
      case None => Other
  }

  /** The common key ending ":<func_name>:<line>". */
  function CallSite(s: RawSample): string {
    ":" + s.funcName + ":" + NatToString(s.line)
  }

  /**
   * The prefix of an ultralytics key: "ultralytics." and then, when the text
   * after the last "ultralytics/" has directories, those directories joined by
   * dots and a final dot. Without "ultralytics/" the whole file name is used.
   */
  function UltralyticsNamespace(filename: string): (ns: string)
    ensures StartsWith(ns, "ultralytics.") && EndsWith(ns, ".")
  {
    var parts := SplitOn(Last(SplitOn(filename, "ultralytics/")), "/");
    if |parts| > 1 then
      var dotted := Join(".", parts[..|parts| - 1]) + ".";
      StartsWithConcat("ultralytics.", dotted, "ultralytics.");
      EndsWithConcat("ultralytics." + Join(".", parts[..|parts| - 1]), ".");
      assert "ultralytics." + dotted == "ultralytics." + Join(".", parts[..|parts| - 1]) + ".";
      "ultralytics." + dotted
    else
      assert "ultralytics."[11..] == ".";
      "ultralytics."
  }

  /** The prefix of a torch key: the first path segment after the last "torch/". */
  function TorchNamespace(filename: string): (ns: string)
    ensures StartsWith(ns, "torch.") && EndsWith(ns, ".")
  {
    var segment := SplitOn(Last(SplitOn(filename, "torch/")), "/")[0];
    StartsWithConcat("torch.", segment + ".", "torch.");
    EndsWithConcat("torch." + segment, ".");
    assert "torch." + (segment + ".") == "torch." + segment + ".";
    "torch." + segment + "."
  }

  /**
   * The key prefix for a file of library `lib`: empty exactly for other
   * files, otherwise a dotted name ending in ".".
   */
  function Namespace(lib: Library, filename: string): (ns: string)
    ensures ns == "" <==> lib == Other
    ensures ns != "" ==> EndsWith(ns, ".")
    ensures lib == Ultralytics ==> StartsWith(ns, "ultralytics.")
    ensures lib == Torch ==> StartsWith(ns, "torch.")
    ensures lib.Package? ==> ns == lib.name + "."
  {
    match lib
    case Ultralytics => UltralyticsNamespace(filename)
    case Torch => TorchNamespace(filename)
    case Package(p) =>
      EndsWithConcat(p, ".");
      p + "."
    case Other => ""
  }

  /**
   * One sample through the ultralytics variant's loop body: None where the
   * loop `continue`s, otherwise the key and record it stores.
   */
  function RichEntry(s: RawSample): (r: Option<Entry>)
    ensures r.Some? <==>
      && !IsInternalFile(s.filename)
      && !IsBootstrap(s)
      && s.cumulativeTime >= MinCumulativeTime
      && (LibraryOf(s.filename) == Torch ==> IsTorchCompute(s.funcName))
      && (LibraryOf(s.filename).Package? ==> s.cumulativeTime >= MinLibraryCumulativeTime)
    ensures r.Some? ==>
      && r.value.record.cumulativeTime == s.cumulativeTime
      && r.value.record.totalTime == s.totalTime
      && r.value.record.callCount == s.callCount
      && r.value.record.filename == s.filename
      && AverageConsistent(r.value.record)
      && r.value.record.isUltralytics == Some(LibraryOf(s.filename) == Ultralytics)
    ensures r.Some? ==> EndsWith(r.value.key, Stem(s.filename) + CallSite(s))
  {
    if IsInternalFile(s.filename) then None
    else if IsBootstrap(s) then None
    else if s.cumulativeTime < MinCumulativeTime then None
    else
      var lib := LibraryOf(s.filename);
      if lib == Torch && !IsTorchCompute(s.funcName) then None
      else if lib.Package? && s.cumulativeTime < MinLibraryCumulativeTime then None
      else
        var tail := Stem(s.filename) + CallSite(s);
        var key := Namespace(lib, s.filename) + tail;
        assert key[|key| - |tail|..] == tail;
        Some(Entry(key, TimingRecord(
          s.cumulativeTime, s.totalTime, s.callCount, AvgTime(s.cumulativeTime, s.callCount),
          s.filename, Some(Contains(s.filename, "ultralytics")))))
  }

  /** One sample through the generic variant's loop body. */
  function PlainEntry(s: RawSample): (r: Option<Entry>)
    ensures r.None? <==> StartsWith(s.filename, "<") && s.cumulativeTime < MinCumulativeTime
    ensures r.Some? ==>
      && r.value.record.cumulativeTime == s.cumulativeTime
      && r.value.record.totalTime == s.totalTime
      && r.value.record.callCount == s.callCount
      && r.value.record.filename == s.filename
      && AverageConsistent(r.value.record)
      && r.value.record.isUltralytics.None?
  {
    if StartsWith(s.filename, "<") && s.cumulativeTime < MinCumulativeTime then None
    else
      Some(Entry(Name(s.filename) + CallSite(s), TimingRecord(
        s.cumulativeTime, s.totalTime, s.callCount, AvgTime(s.cumulativeTime, s.callCount),
        s.filename, None)))
  }

  datatype Variant = Rich | Plain

  function EntryOf(v: Variant, s: RawSample): Option<Entry> {
    match v
    case Rich => RichEntry(s)
    case Plain => PlainEntry(s)
  }

  /** The sample is kept and stored under key `k`. */
  predicate Writes(v: Variant, s: RawSample, k: string) {
    EntryOf(v, s).Some? && EntryOf(v, s).value.key == k
  }

  /** The loop over the samples, in order, storing each kept entry with `timings[key] = ...`. */
  function Collect(v: Variant, samples: seq<RawSample>): (m: TimingMap)
    ensures DistinctKeys(m)
    ensures forall e | e in m :: exists i | 0 <= i < |samples| :: EntryOf(v, samples[i]) == Some(e)
    decreases |samples|
  {
    if |samples| == 0 then []
    else
      var init := samples[..|samples| - 1];
      var m := Collect(v, init);
      assert forall i | 0 <= i < |init| :: samples[i] == init[i];
      match EntryOf(v, Last(samples))
      case None => m
      case Some(e) =>
        UpsertKeepsDistinct(m, e.key, e.record);
        UpsertEntries(m, e.key, e.record);
        Upsert(m, e.key, e.record)
  }

  /** Last write wins: a key holds the record of the last sample stored under it. */
  lemma {:induction false} CollectKeepsLastWrite(v: Variant, samples: seq<RawSample>, i: nat, k: string)
    requires i < |samples| && Writes(v, samples[i], k)
    requires forall j | i < j < |samples| :: !Writes(v, samples[j], k)
    ensures Lookup(Collect(v, samples), k) == Some(EntryOf(v, samples[i]).value.record)
    decreases |samples|
  {
    var init := samples[..|samples| - 1];
    CollectStepLookup(v, samples, k);
    assert Last(samples) == samples[|samples| - 1];
    if i < |samples| - 1 {
      assert init[i] == samples[i];
      assert forall j | i < j < |init| :: init[j] == samples[j];
      CollectKeepsLastWrite(v, init, i, k);
    }
  }

  /** One more sample changes the lookup of `k` only when it is stored under `k`. */
  lemma CollectStepLookup(v: Variant, samples: seq<RawSample>, k: string)
    requires |samples| > 0
    ensures Lookup(Collect(v, samples), k) ==
      if Writes(v, Last(samples), k) then Some(EntryOf(v, Last(samples)).value.record)
      else Lookup(Collect(v, samples[..|samples| - 1]), k)
  {
  }

  /** A key no kept sample was stored under is absent. */
  lemma {:induction false} CollectOmitsUnwritten(v: Variant, samples: seq<RawSample>, k: string)
    requires forall i | 0 <= i < |samples| :: !Writes(v, samples[i], k)
    ensures Lookup(Collect(v, samples), k).None?
    decreases |samples|
  {
    if |samples| > 0 {
      var init := samples[..|samples| - 1];
      CollectOmitsUnwritten(v, init, k);
    }
  }

  /** `_extract_timing_data` of the ultralytics variant. */
  function RichTimings(samples: seq<RawSample>): (m: TimingMap)
    ensures DistinctKeys(m)
    ensures multiset(m) == multiset(Collect(Rich, samples))
    ensures forall i, j | 0 <= i < j < |m| :: IsPriority(m[j].record) ==> IsPriority(m[i].record)
    ensures forall i, j | 0 <= i < j < |m| && IsPriority(m[i].record) == IsPriority(m[j].record) ::
      m[i].record.cumulativeTime >= m[j].record.cumulativeTime
  {
    Sort(PriorityThenCumulative, Collect(Rich, samples))
  }

  /** `_extract_timing_data` of the generic variant. */
  function PlainTimings(samples: seq<RawSample>): (m: TimingMap)
    ensures DistinctKeys(m)
    ensures multiset(m) == multiset(Collect(Plain, samples))
    ensures forall i, j | 0 <= i < j < |m| :: m[i].record.cumulativeTime >= m[j].record.cumulativeTime
  {
    Sort(ByCumulative, Collect(Plain, samples))
  }
}

=== FILE: normalizer_properties.dfy ===
/**
 * What the two normalisers guarantee about the dict they return: which
 * samples survive, what their records hold, how keys are formed, how the
 * dict is ordered, and that the last sample written under a key wins.
 */
module NormalizerProperties {
  import opened Wrappers
  import opened Text
  import opened PurePath
  import opened Timings
  import opened Ordering
  import opened Normalizer

  /** Every entry of the result is the entry of some sample. */
  lemma RichTimingsFromSamples(samples: seq<RawSample>)
    ensures forall e | e in RichTimings(samples) ::
      exists i | 0 <= i < |samples| :: RichEntry(samples[i]) == Some(e)
  {
    forall e | e in RichTimings(samples)
      ensures exists i | 0 <= i < |samples| :: RichEntry(samples[i]) == Some(e)
    {
      assert e in multiset(Collect(Rich, samples));
    }
  }

  /** A record the ultralytics variant keeps passes every filter on its file and cost. */
  predicate PassesRichFilters(r: TimingRecord) {
    && !IsInternalFile(r.filename)
    && (forall p | p in SkipPatterns :: !Contains(r.filename, p))
    && r.cumulativeTime >= MinCumulativeTime
    && (LibraryOf(r.filename).Package? ==> r.cumulativeTime >= MinLibraryCumulativeTime)
  }

  /** The derived fields: the guarded average and the priority flag. */
  predicate DerivedFieldsConsistent(r: TimingRecord) {
    AverageConsistent(r) && (IsPriority(r) <==> Contains(r.filename, "ultralytics"))
  }

  predicate RichRecordFiltered(r: TimingRecord) {
    PassesRichFilters(r) && DerivedFieldsConsistent(r)
  }

  lemma RichEntryPassesFilters(s: RawSample)
    requires RichEntry(s).Some?
    ensures PassesRichFilters(RichEntry(s).value.record)
  {
  }

  lemma RichEntryDerivedFields(s: RawSample)
    requires RichEntry(s).Some?
    ensures DerivedFieldsConsistent(RichEntry(s).value.record)
  {
  }

  lemma RichEntryFiltered(s: RawSample)
    requires RichEntry(s).Some?
    ensures RichRecordFiltered(RichEntry(s).value.record)
  {
    RichEntryPassesFilters(s);
    RichEntryDerivedFields(s);
  }

  /**
   * The records of the ultralytics variant: no built-in or "~" file, no skip
   * pattern in the file name, at least 1 ms cumulative, 5 ms for secondary
   * libraries, the guarded average, and the priority flag set exactly for
   * files whose name contains "ultralytics".
   */
  lemma RichTimingsRecords(samples: seq<RawSample>)
    ensures forall e | e in RichTimings(samples) :: RichRecordFiltered(e.record)
  {
    RichTimingsFromSamples(samples);
    forall e | e in RichTimings(samples)
      ensures RichRecordFiltered(e.record)
    {
      var i :| 0 <= i < |samples| && RichEntry(samples[i]) == Some(e);
      RichEntryFiltered(samples[i]);
    }
  }

  /**
   * A kept sample from a torch file under site-packages has a compute
   * keyword in its lower-cased function name.
   */
  lemma TorchKeepsOnlyCompute(s: RawSample)
    requires RichEntry(s).Some? && LibraryOf(s.filename) == Torch
    ensures exists k | k in TorchKeywords :: Contains(Lower(s.funcName), k)
  {
  }

  /** The key of a kept sample: its library's namespace, the stem and the call site. */
  lemma RichEntryKey(s: RawSample)
    requires RichEntry(s).Some?
    ensures RichEntry(s).value.key == Namespace(LibraryOf(s.filename), s.filename) + (Stem(s.filename) + CallSite(s))
  {
  }

  /**
   * The key of a kept sample starts with the prefix of its branch:
   * "ultralytics.", "torch.", "<package>." or nothing at all.
   */
  lemma RichKeyPrefix(s: RawSample)
    requires RichEntry(s).Some?
    ensures var key := RichEntry(s).value.key;
      match LibraryOf(s.filename)
      case Ultralytics => StartsWith(key, "ultralytics.")
      case Torch => StartsWith(key, "torch.")
      case Package(p) => key == p + "." + (Stem(s.filename) + CallSite(s))
      case Other => key == Stem(s.filename) + CallSite(s)
  {
    var tail := Stem(s.filename) + CallSite(s);
    RichEntryKey(s);
    match LibraryOf(s.filename)
    case Ultralytics =>
      StartsWithConcat(UltralyticsNamespace(s.filename), tail, "ultralytics.");
    case Torch =>
      StartsWithConcat(TorchNamespace(s.filename), tail, "torch.");
    case Package(p) =>
    case Other =>
  }

  /**
   * A torchvision file under site-packages takes the torch branch, which
   * comes first: it needs a torch compute keyword to be kept, and its key
   * starts with "torch.", not "torchvision.".
   */
  lemma TorchvisionInSitePackagesIsTorch(s: RawSample)
    requires !Contains(s.filename, "ultralytics")
    requires Contains(s.filename, "torchvision") && Contains(s.filename, "site-packages")
    ensures LibraryOf(s.filename) == Torch
    ensures RichEntry(s).Some? ==> IsTorchCompute(s.funcName) && StartsWith(RichEntry(s).value.key, "torch.")
    ensures StartsWith(s.filename, "/") && !Contains(s.filename, "torch/") ==>
      Namespace(LibraryOf(s.filename), s.filename) == "torch.."
  {
    assert "torch" + "vision" == "torchvision";
    ContainsPart(s.filename, "torch", "vision");
    if RichEntry(s).Some? {
      RichKeyPrefix(s);
    }
    if StartsWith(s.filename, "/") && !Contains(s.filename, "torch/") {
      TorchBranchWithoutTorchDir(s.filename);
    }
  }

  /** A torch-branch absolute name without "torch/" gets the prefix "torch..". */
  lemma TorchBranchWithoutTorchDir(filename: string)
    requires LibraryOf(filename) == Torch
    requires StartsWith(filename, "/") && !Contains(filename, "torch/")
    ensures Namespace(LibraryOf(filename), filename) == "torch.."
  {
    var rest := filename[1..];
    assert filename == "/" + rest;
    TorchNamespaceWithoutTorchDir(rest);
  }

  /**
   * When the file name contains "ultralytics" but not "ultralytics/", the
   * split on "ultralytics/" leaves the whole name, so the dotted module path
   * is built from every directory of the full path.
   */
  lemma UltralyticsNamespaceWithoutSlash(filename: string)
    requires !Contains(filename, "ultralytics/")
    ensures var parts := SplitOn(filename, "/");
      UltralyticsNamespace(filename) ==
        if |parts| > 1 then "ultralytics." + Join(".", parts[..|parts| - 1]) + "." else "ultralytics."
  {
  }

  /**
   * A file under "<pre>ultralytics/<d1>/.../<dk>/<file>", with no later
   * "ultralytics/", is namespaced by its directories below that point:
   * "ultralytics.<d1>.….<dk>.", or just "ultralytics." when the file sits
   * directly under it.
   */
  lemma UltralyticsNamespaceOfPath(pre: string, dirs: seq<string>, file: string)
    requires forall piece | piece in dirs + [file] :: !Contains(piece, "/")
    requires !Contains(Join("/", dirs + [file]), "ultralytics/")
    ensures |dirs| == 0 ==> UltralyticsNamespace(pre + "ultralytics/" + Join("/", dirs + [file])) == "ultralytics."
    ensures |dirs| > 0 ==>
      UltralyticsNamespace(pre + "ultralytics/" + Join("/", dirs + [file])) == "ultralytics." + Join(".", dirs) + "."
  {
    var parts := dirs + [file];
    var tail := Join("/", parts);
    var filename := pre + "ultralytics/" + tail;
    assert Last(SplitOn(filename, "ultralytics/")) == tail by {
      UltralyticsDirectoryEndMarked();
      LastPieceAfterSeparator(pre, "ultralytics/", tail);
    }
    assert SplitOn(tail, "/") == parts by {
      SplitOnJoin(parts, "/");
    }
    UltralyticsNamespaceOfParts(filename, parts);
    assert parts[..|parts| - 1] == dirs;
  }

  /** "ultralytics/" ends in its only "/". */
  lemma UltralyticsDirectoryEndMarked()
    ensures EndMarked("ultralytics/")
  {
    EndMarkedDirectory("ultralytics");
  }

  /** The ultralytics prefix in terms of the pieces of the text after the last "ultralytics/". */
  lemma UltralyticsNamespaceOfParts(filename: string, parts: seq<string>)
    requires SplitOn(Last(SplitOn(filename, "ultralytics/")), "/") == parts
    ensures |parts| > 1 ==> UltralyticsNamespace(filename) == "ultralytics." + Join(".", parts[..|parts| - 1]) + "."
    ensures |parts| <= 1 ==> UltralyticsNamespace(filename) == "ultralytics."
  {
  }

  /**
   * A torch file under "<pre>torch/<segment>/<rest>", with no later
   * "torch/", is namespaced by that first segment: "torch.<segment>.".
   */
  lemma TorchNamespaceOfPath(pre: string, segment: string, rest: string)
    requires '/' !in segment
    requires !Contains(segment + "/" + rest, "torch/")
    ensures TorchNamespace(pre + "torch/" + segment + "/" + rest) == "torch." + segment + "."
  {
    var tail := segment + "/" + rest;
    EndMarkedDirectory("torch");
    assert pre + "torch/" + segment + "/" + rest == pre + "torch/" + tail;
    LastPieceAfterSeparator(pre, "torch/", tail);
    ContainsChar(segment, '/');
    FirstPieceBeforeSeparator(segment, "/", rest);
  }

  /** A file directly below the last "torch/" is namespaced by its whole name: "torch.<file>.". */
  lemma TorchNamespaceOfDirectFile(pre: string, file: string)
    requires '/' !in file && !Contains(file, "torch/")
    ensures TorchNamespace(pre + "torch/" + file) == "torch." + file + "."
  {
    EndMarkedDirectory("torch");
    LastPieceAfterSeparator(pre, "torch/", file);
    ContainsChar(file, '/');
    SplitOnAbsent(file, "/");
  }

  /**
   * An absolute torch-branch name with no "torch/" in it (a torchvision file
   * that never passes through a "torch/" directory, say) is split whole, its
   * first "/"-piece is empty, and the prefix is "torch..".
   */
  lemma TorchNamespaceWithoutTorchDir(rest: string)
    requires !Contains("/" + rest, "torch/")
    ensures TorchNamespace("/" + rest) == "torch.."
  {
    SplitOnAbsent("/" + rest, "torch/");
    assert Last(["/" + rest]) == "/" + rest;
    FirstPieceBeforeSeparator("", "/", rest);
    assert "" + "/" + rest == "/" + rest;
  }

  /**
   * Keys end in ":<line>": the text after the last ":" of a key is the
   * decimal line number, and reading it back gives the sample's line.
   */
  lemma KeyLineRoundTrip(s: RawSample, prefix: string)
    ensures var last := Last(SplitOn(prefix + CallSite(s), ":"));
      && (forall i | 0 <= i < |last| :: IsDigit(last[i]))
      && ParseNat(last) == s.line
  {
    var digits := NatToString(s.line);
    ContainsChar(digits, ':');
    assert prefix + CallSite(s) == (prefix + ":" + s.funcName) + ":" + digits;
    LastPieceAfterSeparator(prefix + ":" + s.funcName, ":", digits);
    ParseNatToString(s.line);
  }

  /** Every key of either variant ends with ":<func_name>:<line>" for the sample it came from. */
  lemma EntryKeyEndsWithCallSite(v: Variant, s: RawSample)
    requires EntryOf(v, s).Some?
    ensures EndsWith(EntryOf(v, s).value.key, CallSite(s))
  {
    if v == Rich {
      EndsWithPart(RichEntry(s).value.key, Stem(s.filename), CallSite(s));
    } else {
      EndsWithConcat(Name(s.filename), CallSite(s));
    }
  }

  /**
   * For "<dir>/<stem>.py" the generic variant keys by the file name,
   * extension included, and the ultralytics variant by the stem.
   */
  lemma FileNameVersusStem(dir: string, stem: string, s: RawSample)
    requires |stem| > 0 && '.' !in stem && '/' !in stem
    requires s.filename == dir + "/" + stem + ".py"
    ensures PlainEntry(s).Some? ==> PlainEntry(s).value.key == stem + ".py" + CallSite(s)
    ensures RichEntry(s).Some? ==> EndsWith(RichEntry(s).value.key, stem + CallSite(s))
  {
    PyFileInDirectory(dir, stem);
  }

  /** The generic variant drops a sample only when it is a cheap built-in. */
  lemma PlainKeepsAllButCheapBuiltins(samples: seq<RawSample>)
    ensures forall e | e in PlainTimings(samples) ::
      exists i | 0 <= i < |samples| ::
        && !(StartsWith(samples[i].filename, "<") && samples[i].cumulativeTime < MinCumulativeTime)
        && e.key == Name(samples[i].filename) + CallSite(samples[i])
        && e.record.avgTime == AvgTime(samples[i].cumulativeTime, samples[i].callCount)
    ensures forall i | 0 <= i < |samples| && !StartsWith(samples[i].filename, "<") ::
      Name(samples[i].filename) + CallSite(samples[i]) in KeySet(PlainTimings(samples))
  {
    forall e | e in PlainTimings(samples)
      ensures exists i | 0 <= i < |samples| ::
        && !(StartsWith(samples[i].filename, "<") && samples[i].cumulativeTime < MinCumulativeTime)
        && e.key == Name(samples[i].filename) + CallSite(samples[i])
        && e.record.avgTime == AvgTime(samples[i].cumulativeTime, samples[i].callCount)
    {
      assert e in multiset(Collect(Plain, samples));
      var i :| 0 <= i < |samples| && EntryOf(Plain, samples[i]) == Some(e);
      assert PlainEntry(samples[i]) == Some(e);
    }
    forall i | 0 <= i < |samples| && !StartsWith(samples[i].filename, "<")
      ensures Name(samples[i].filename) + CallSite(samples[i]) in KeySet(PlainTimings(samples))
    {
      var k := Name(samples[i].filename) + CallSite(samples[i]);
      assert Writes(Plain, samples[i], k);
      if Lookup(Collect(Plain, samples), k).None? {
        var j := LastWriter(Plain, samples, i, k);
        CollectKeepsLastWrite(Plain, samples, j, k);
      }
      LookupPermutation(Collect(Plain, samples), PlainTimings(samples), k);
    }
  }

  /** Some sample at or after a writer of `k` is the last one to write it. */
  lemma LastWriter(v: Variant, samples: seq<RawSample>, i: nat, k: string) returns (j: nat)
    requires i < |samples| && Writes(v, samples[i], k)
    ensures i <= j < |samples| && Writes(v, samples[j], k)
    ensures forall j' | j < j' < |samples| :: !Writes(v, samples[j'], k)
    decreases |samples| - i
  {
    if exists j' | i < j' < |samples| :: Writes(v, samples[j'], k) {
      var j' :| i < j' < |samples| && Writes(v, samples[j'], k);
      j := LastWriter(v, samples, j', k);
    } else {
      j := i;
    }
  }

  /**
   * Last write wins in the returned dicts: a key holds the record of the last
   * sample stored under it, and a key nothing was stored under is absent.
   */
  lemma {:induction false} TimingsLastWriteWins(v: Variant, samples: seq<RawSample>, k: string)
    ensures var m := if v == Rich then RichTimings(samples) else PlainTimings(samples);
      && (Lookup(m, k).None? <==> forall i | 0 <= i < |samples| :: !Writes(v, samples[i], k))
      && forall i | 0 <= i < |samples| && Writes(v, samples[i], k) &&
           (forall j | i < j < |samples| :: !Writes(v, samples[j], k)) ::
           Lookup(m, k) == Some(EntryOf(v, samples[i]).value.record)
  {
    var m := if v == Rich then RichTimings(samples) else PlainTimings(samples);
    LookupPermutation(Collect(v, samples), m, k);
    if forall i | 0 <= i < |samples| :: !Writes(v, samples[i], k) {
      CollectOmitsUnwritten(v, samples, k);
    } else {
      var i0 :| 0 <= i0 < |samples| && Writes(v, samples[i0], k);
      var j := LastWriter(v, samples, i0, k);
      CollectKeepsLastWrite(v, samples, j, k);
    }
    forall i | 0 <= i < |samples| && Writes(v, samples[i], k) &&
      (forall j | i < j < |samples| :: !Writes(v, samples[j], k))
      ensures Lookup(m, k) == Some(EntryOf(v, samples[i]).value.record)
    {
      CollectKeepsLastWrite(v, samples, i, k);
    }
  }
}

=== FILE: opaque.dfy ===
/**
 * `_profile_bash_command`, identical in both variants: a command that cannot
 * be instrumented is run once and timed as a whole, giving a dict with a
 * single record for the entire execution.
 *
 * The clock and the process are inputs: the run either finishes after some
 * elapsed wall-clock time, times out, or fails to start.
 */
module Opaque {
  import opened Wrappers
  import opened Text
  import opened Timings

  /** What running the command under a wall clock came to. */
  datatype WallClockRun = Finished(elapsed: real) | TimedOut | Failed

  /** The fixed ending of the single key: function "total_execution", line 0. */
  const TotalExecution: string := ":total_execution:0"

  /** The pseudo file name of the single record. */
  const BashCommandFile: string := "bash_command"

  /** `f"{' '.join(command)}:total_execution:0"` */
  function OpaqueKey(command: seq<string>): (k: string)
    ensures EndsWith(k, TotalExecution)
    ensures k[..|k| - |TotalExecution|] == Join(" ", command)
  {
    assert (Join(" ", command) + TotalExecution)[..|Join(" ", command)|] == Join(" ", command);
    EndsWithConcat(Join(" ", command), TotalExecution);
    Join(" ", command) + TotalExecution
  }

  /**
   * The dict returned for an opaque command. A finished run gives one entry;
   * a timeout or any other exception gives an empty dict. An empty command
   * never finishes: `subprocess.run([])` raises before the clock is read
   * again, and that exception is caught like any other.
   */
  function OpaqueTimings(command: seq<string>, run: WallClockRun): (m: TimingMap)
    ensures |m| <= 1
    ensures |m| == 1 <==> run.Finished? && |command| > 0
    ensures |m| == 1 ==>
      && m[0].key == OpaqueKey(command)
      && m[0].record == TimingRecord(run.elapsed, run.elapsed, 1, run.elapsed, BashCommandFile, None)
  {
    if |command| > 0 && run.Finished? then
      [Entry(OpaqueKey(command), TimingRecord(run.elapsed, run.elapsed, 1, run.elapsed, BashCommandFile, None))]
    else []
  }

  /**
   * The opaque record obeys the same average rule as profiled records: one
   * call, so the average is the elapsed time; and its dict has distinct keys.
   */
  lemma OpaqueTimingsWellFormed(command: seq<string>, run: WallClockRun)
    ensures DistinctKeys(OpaqueTimings(command, run))
    ensures forall e | e in OpaqueTimings(command, run) :: AverageConsistent(e.record)
  {
  }

  /**
   * The command can be read back from the key: when every token is a word
   * (non-empty, no whitespace), as it is after `str.split()`, splitting the
   * text before ":total_execution:0" on whitespace gives the tokens again.
   */
  lemma {:induction false} OpaqueKeyRecoversCommand(command: seq<string>)
    requires forall w | w in command :: IsWord(w)
    ensures var k := OpaqueKey(command);
      Words(k[..|k| - |TotalExecution|]) == command
  {
    WordsJoin(command);
  }
}

=== FILE: ordering.dfy ===
/**
 * The orders the profiler sorts timing entries by, and Python's `sorted`
 * over them: a stable sort, so entries whose sort keys tie keep the order
 * they had in the dict.
 */
module Ordering {
  import opened Wrappers
  import opened Timings

  /**
   * The sort keys the profiler uses:
   * - PriorityThenCumulative: `(not is_ultralytics, -cumulative_time)`, ascending;
   * - ByCumulative: `cumulative_time`, reverse=True;
   * - ByCallCount: `call_count`, reverse=True;
   * - ByTotalTime: `total_time`, reverse=True.
   */
  datatype Order = PriorityThenCumulative | ByCumulative | ByCallCount | ByTotalTime

  /** `record.get("is_ultralytics", False)` */
  predicate IsPriority(r: TimingRecord) {
    r.isUltralytics == Some(true)
  }

  /** `a` may stand before `b` in a list sorted by `o`: its sort key is no greater. */
  predicate Precedes(o: Order, a: TimingRecord, b: TimingRecord) {
    match o
    case PriorityThenCumulative =>
      || (IsPriority(a) && !IsPriority(b))
      || (IsPriority(a) == IsPriority(b) && a.cumulativeTime >= b.cumulativeTime)
    case ByCumulative => a.cumulativeTime >= b.cumulativeTime
    case ByCallCount => a.callCount >= b.callCount
    case ByTotalTime => a.totalTime >= b.totalTime
  }

  /** Equal sort keys. */
  predicate Tied(o: Order, a: TimingRecord, b: TimingRecord) {
    Precedes(o, a, b) && Precedes(o, b, a)
  }

  lemma PrecedesTotal(o: Order, a: TimingRecord, b: TimingRecord)
    ensures Precedes(o, a, b) || Precedes(o, b, a)
  {
  }

  lemma PrecedesTransitive(o: Order, a: TimingRecord, b: TimingRecord, c: TimingRecord)
    requires Precedes(o, a, b) && Precedes(o, b, c)
    ensures Precedes(o, a, c)
  {
  }

  predicate SortedBy(o: Order, m: TimingMap) {
    forall i, j | 0 <= i < j < |m| :: Precedes(o, m[i].record, m[j].record)
  }

  /**
   * Inserts `e` into a sorted list in front of the first entry it may
   * precede, so `e` lands ahead of every entry tied with it.
   */
  function Insert(o: Order, e: Entry, t: TimingMap): TimingMap
    decreases |t|
  {
    if |t| == 0 then [e]
    else if Precedes(o, e.record, t[0].record) then [e] + t
    else [t[0]] + Insert(o, e, t[1..])
  }

  /** Insertion adds `e` and nothing else: the entries and the keys of `t`, plus `e`. */
  lemma InsertContents(o: Order, e: Entry, t: TimingMap)
    ensures multiset(Insert(o, e, t)) == multiset(t) + multiset{e}
    ensures KeySet(Insert(o, e, t)) == KeySet(t) + {e.key}
  {
    InsertMultiset(o, e, t);
    InsertKeys(o, e, t);
  }

  lemma {:induction false} InsertMultiset(o: Order, e: Entry, t: TimingMap)
    ensures multiset(Insert(o, e, t)) == multiset(t) + multiset{e}
    decreases |t|
  {
    if |t| > 0 && !Precedes(o, e.record, t[0].record) {
      InsertMultiset(o, e, t[1..]);
      assert Insert(o, e, t) == [t[0]] + Insert(o, e, t[1..]);
      assert t == [t[0]] + t[1..];
    }
  }

  lemma {:induction false} InsertKeys(o: Order, e: Entry, t: TimingMap)
    ensures KeySet(Insert(o, e, t)) == KeySet(t) + {e.key}
    decreases |t|
  {
    if |t| == 0 {
      KeySetCons(e, t);
      assert [e] + t == [e];
    } else if Precedes(o, e.record, t[0].record) {
      KeySetCons(e, t);
    } else {
      var tail := Insert(o, e, t[1..]);
      InsertKeys(o, e, t[1..]);
      assert Insert(o, e, t) == [t[0]] + tail;
      assert t == [t[0]] + t[1..];
      KeySetCons(t[0], t[1..]);
      KeySetCons(t[0], tail);
    }
  }

  lemma {:induction false} InsertSorted(o: Order, e: Entry, t: TimingMap)
    requires SortedBy(o, t)
    ensures SortedBy(o, Insert(o, e, t))
    decreases |t|
  {
    if |t| == 0 {
      assert Insert(o, e, t) == [e];
    } else if Precedes(o, e.record, t[0].record) {
      assert Insert(o, e, t) == [e] + t;
      forall x | x in t
        ensures Precedes(o, e.record, x.record)
      {
        if x != t[0] {
          PrecedesTransitive(o, e.record, t[0].record, x.record);
        }
      }
      SortedCons(o, e, t);
    } else {
      var tail := Insert(o, e, t[1..]);
      assert Insert(o, e, t) == [t[0]] + tail;
      PrecedesTotal(o, e.record, t[0].record);
      InsertSorted(o, e, t[1..]);
      InsertContents(o, e, t[1..]);
      forall x | x in tail
        ensures Precedes(o, t[0].record, x.record)
      {
        assert x in multiset(tail);
        if x != e {
          assert x in multiset(t[1..]);
        }
      }
      SortedCons(o, t[0], tail);
    }
  }

  /** A sorted list stays sorted when an entry that may precede all of it is put in front. */
  lemma SortedCons(o: Order, a: Entry, t: TimingMap)
    requires SortedBy(o, t)
    requires forall x | x in t :: Precedes(o, a.record, x.record)
    ensures SortedBy(o, [a] + t)
  {
    var r := [a] + t;
    forall i, j | 0 <= i < j < |r|
      ensures Precedes(o, r[i].record, r[j].record)
    {
      assert r[j] == t[j - 1];
      if i > 0 {
        assert r[i] == t[i - 1];
      }
    }
  }

  lemma {:induction false} InsertKeepsDistinct(o: Order, e: Entry, t: TimingMap)
    ensures DistinctKeys(t) && e.key !in KeySet(t) ==> DistinctKeys(Insert(o, e, t))
    decreases |t|
  {
    if DistinctKeys(t) && e.key !in KeySet(t) && |t| > 0 && !Precedes(o, e.record, t[0].record) {
      InsertKeepsDistinct(o, e, t[1..]);
      InsertContents(o, e, t[1..]);
      assert Insert(o, e, t)[1..] == Insert(o, e, t[1..]);
    }
  }

  /** `sorted(m, key=...)`: a sorted permutation of `m` with the same keys. */
  function Sort(o: Order, m: TimingMap): (r: TimingMap)
    ensures multiset(r) == multiset(m)
    ensures |r| == |m|
    ensures SortedBy(o, r)
    ensures KeySet(r) == KeySet(m)
    ensures DistinctKeys(m) ==> DistinctKeys(r)
    decreases |m|
  {
    if |m| == 0 then []
    else
      SortStep(o, m, Sort(o, m[1..]));
      Insert(o, m[0], Sort(o, m[1..]))
  }

  /** Inserting the head into a sorted permutation of the tail sorts the whole list. */
  lemma SortStep(o: Order, m: TimingMap, rest: TimingMap)
    requires |m| > 0
    requires multiset(rest) == multiset(m[1..]) && SortedBy(o, rest) && KeySet(rest) == KeySet(m[1..])
    requires DistinctKeys(m[1..]) ==> DistinctKeys(rest)
    ensures multiset(Insert(o, m[0], rest)) == multiset(m)
    ensures |Insert(o, m[0], rest)| == |m|
    ensures SortedBy(o, Insert(o, m[0], rest))
    ensures KeySet(Insert(o, m[0], rest)) == KeySet(m)
    ensures DistinctKeys(m) ==> DistinctKeys(Insert(o, m[0], rest))
  {
    var r := Insert(o, m[0], rest);
    InsertContents(o, m[0], rest);
    InsertSorted(o, m[0], rest);
    InsertKeepsDistinct(o, m[0], rest);
    assert m == [m[0]] + m[1..];
    assert |multiset(r)| == |m|;
  }

  /** The entries of `m` whose sort key ties with `pivot`, in their order in `m`. */
  function TiedWith(o: Order, m: TimingMap, pivot: TimingRecord): TimingMap
    decreases |m|
  {
    if |m| == 0 then []
    else (if Tied(o, m[0].record, pivot) then [m[0]] else []) + TiedWith(o, m[1..], pivot)
  }

  lemma {:induction false} TiedWithInsert(o: Order, e: Entry, t: TimingMap, pivot: TimingRecord)
    ensures TiedWith(o, Insert(o, e, t), pivot) ==
      (if Tied(o, e.record, pivot) then [e] else []) + TiedWith(o, t, pivot)
    decreases |t|
  {
    if |t| == 0 {
      assert Insert(o, e, t) == [e];
    } else if Precedes(o, e.record, t[0].record) {
      TiedWithCons(o, e, t, pivot);
    } else {
      var tail := Insert(o, e, t[1..]);
      assert Insert(o, e, t) == [t[0]] + tail;
      TiedWithInsert(o, e, t[1..], pivot);
      TiedWithCons(o, t[0], tail, pivot);
      TiedWithCons(o, t[0], t[1..], pivot);
      assert [t[0]] + t[1..] == t;
      NotBothTied(o, e.record, t[0].record, pivot);
      SwapAroundEmpty(if Tied(o, e.record, pivot) then [e] else [],
                      if Tied(o, t[0].record, pivot) then [t[0]] else [],
                      TiedWith(o, t[1..], pivot));
    }
  }

  /** An entry that may not precede another cannot share its sort key with it. */
  lemma NotBothTied(o: Order, a: TimingRecord, b: TimingRecord, pivot: TimingRecord)
    requires !Precedes(o, a, b)
    ensures !(Tied(o, a, pivot) && Tied(o, b, pivot))
  {
    if Tied(o, a, pivot) && Tied(o, b, pivot) {
      PrecedesTransitive(o, a, pivot, b);
    }
  }

  lemma SwapAroundEmpty<T>(a: seq<T>, b: seq<T>, x: seq<T>)
    requires a == [] || b == []
    ensures a + (b + x) == b + (a + x)
  {
    if a == [] {
      assert a + (b + x) == b + x;
    } else {
      assert b + (a + x) == a + x;
    }
  }

  lemma TiedWithCons(o: Order, e: Entry, t: TimingMap, pivot: TimingRecord)
    ensures TiedWith(o, [e] + t, pivot) == (if Tied(o, e.record, pivot) then [e] else []) + TiedWith(o, t, pivot)
  {
    assert ([e] + t)[1..] == t;
  }

  /**
   * `sorted` is stable: for every sort key, the entries carrying that key
   * appear in the result in the order they had in the input.
   */
  lemma {:induction false} SortIsStable(o: Order, m: TimingMap, pivot: TimingRecord)
    ensures TiedWith(o, Sort(o, m), pivot) == TiedWith(o, m, pivot)
    decreases |m|
  {
    if |m| > 0 {
      SortIsStable(o, m[1..], pivot);
      TiedWithInsert(o, m[0], Sort(o, m[1..]), pivot);
    }
  }
}

=== FILE: profiling.dfy ===
/**
 * `Profiler.profile_command` and the module-level `profile_command` of both
 * variants: classify the command, profile it under cProfile or time it as a
 * whole, normalise what the profiler wrote, and analyse the result.
 *
 * Everything the outside world decides is an input, gathered in an
 * `Environment`: the interpreter running the profiler, the temporary stats
 * file, what `which` and reading the script's first line came to, what the
 * profiled run left behind, how the timed run ended, and the text the run
 * printed.
 */
module Profiling {
  import opened Wrappers
  import opened Text
  import opened Classifier
  import opened Launch
  import opened Timings
  import opened Normalizer
  import opened NormalizerProperties
  import opened Opaque
  import opened Report

  /** What the run under cProfile came to. */
  datatype ProfiledRun =
    | StatsWritten(samples: seq<RawSample>)  // the stats file could be loaded; its entries
    | NoStatsFile                            // the stats file is missing
    | Raised                                 // running or loading raised an exception

  datatype Environment = Environment(
    executable: string,
    statsFile: string,
    which: Option<string>,
    firstLine: Option<string>,
    profiled: ProfiledRun,
    wallClock: WallClockRun,
    output: string)

  /** How the command was measured. */
  datatype Measurement = Instrumented(argv: seq<string>) | WallClock

  datatype Outcome = Outcome(how: Measurement, timings: TimingMap)

  /** `_extract_timing_data` of variant `v`. */
  function TimingsOf(v: Variant, samples: seq<RawSample>): TimingMap {
    if v == Rich then RichTimings(samples) else PlainTimings(samples)
  }

  /** The dict a profiled run gives: the normalised stats, or nothing. */
  function ProfiledTimings(v: Variant, run: ProfiledRun): (m: TimingMap)
    ensures run.StatsWritten? ==> m == TimingsOf(v, run.samples)
    ensures !run.StatsWritten? ==> m == []
  {
    match run
    case StatsWritten(samples) => TimingsOf(v, samples)
    case _ => []
  }

  /** `Profiler.profile_command` of variant `v`, without the printed output. */
  function ProfileCommand(v: Variant, command: seq<string>, env: Environment): (o: Outcome)
    ensures o.how.Instrumented? ==> IsPythonCommand(command)
    ensures v == Plain ==> (o.how.Instrumented? <==> IsPythonCommand(command))
    ensures v == Rich ==> (o.how.Instrumented? <==>
      IsPythonCommand(command) &&
      (IsInterpreter(command[0]) ||
       (env.which.Some? && env.firstLine.Some? && Contains(env.firstLine.value, "python"))))
    ensures o.how.Instrumented? ==> o.timings == ProfiledTimings(v, env.profiled)
    ensures o.how.WallClock? ==> o.timings == OpaqueTimings(command, env.wallClock)
  {
    if !IsPythonCommand(command) then Outcome(WallClock, OpaqueTimings(command, env.wallClock))
    else if v == Plain then
      Outcome(Instrumented(PlainArgv(env.executable, env.statsFile, command)), ProfiledTimings(v, env.profiled))
    else
      match RichPlan(env.executable, env.statsFile, command, env.which, env.firstLine)
      case Fallback => Outcome(WallClock, OpaqueTimings(command, env.wallClock))
      case Resolved(argv) => Outcome(Instrumented(argv), ProfiledTimings(v, env.profiled))
  }

  /** Every record any path returns keeps the average rule, and the dict has distinct keys. */
  lemma ProfileCommandWellFormed(v: Variant, command: seq<string>, env: Environment)
    ensures DistinctKeys(ProfileCommand(v, command, env).timings)
    ensures forall e | e in ProfileCommand(v, command, env).timings :: AverageConsistent(e.record)
  {
    var o := ProfileCommand(v, command, env);
    if o.how.WallClock? {
      OpaqueTimingsWellFormed(command, env.wallClock);
    } else if env.profiled.StatsWritten? {
      TimingsAverageConsistent(v, env.profiled.samples);
    }
  }

  /** The normalised dict of either variant keeps the average rule in every record. */
  lemma TimingsAverageConsistent(v: Variant, samples: seq<RawSample>)
    ensures forall e | e in TimingsOf(v, samples) :: AverageConsistent(e.record)
  {
    var m := TimingsOf(v, samples);
    assert multiset(m) == multiset(Collect(v, samples));
    forall e | e in m
      ensures AverageConsistent(e.record)
    {
      assert e in multiset(Collect(v, samples));
      var i :| 0 <= i < |samples| && EntryOf(v, samples[i]) == Some(e);
      EntryAverageConsistent(v, samples[i]);
    }
  }

  lemma EntryAverageConsistent(v: Variant, s: RawSample)
    requires EntryOf(v, s).Some?
    ensures AverageConsistent(EntryOf(v, s).value.record)
  {
  }

  /**
   * An instrumented run runs cProfile into the stats file: with the user's
   * interpreter, or the running one for tools and scripts.
   */
  lemma InstrumentedArgv(v: Variant, command: seq<string>, env: Environment)
    requires ProfileCommand(v, command, env).how.Instrumented?
    ensures var inv := ParseArgv(ProfileCommand(v, command, env).how.argv);
      && inv.Some?
      && inv.value.statsFile == env.statsFile
      && inv.value.python == (if IsInterpreter(command[0]) then command[0] else env.executable)
  {
  }

  /** `profile_command`'s argument: a command line or a list of tokens. */
  datatype CommandInput = CommandLine(line: string) | TokenList(tokens: seq<string>)

  /** `command.split() if isinstance(command, str) else command` */
  function CommandTokens(input: CommandInput): (tokens: seq<string>)
    ensures input.CommandLine? ==> forall k | 0 <= k < |tokens| :: IsWord(tokens[k])
    ensures input.TokenList? ==> tokens == input.tokens
  {
    match input
    case CommandLine(line) => Words(line)
    case TokenList(tokens) => tokens
  }

  /**
   * A command line's tokens ignore how the words are separated: leading and
   * trailing blanks vanish and any run of spaces, tabs or newlines cuts once.
   */
  lemma WhitespaceInCommandLine(a: string, b: string)
    requires IsWord(a) && IsWord(b)
    ensures CommandTokens(CommandLine(" \t" + a + "  \t " + b + "\n")) == [a, b]
  {
    assert " \t" + a + "  \t " + b + "\n" == " \t" + (a + "  \t " + (b + "\n"));
    WordsAfterBlank(" \t", a + "  \t " + (b + "\n"));
    WordsOfWordThenBlank(a, "  \t ", b + "\n");
    WordsOfWordThenRest(b, "\n");
    WordsOfBlank("\n");
  }

  /** A list of words and the same words joined by spaces name the same command. */
  lemma {:induction false} CommandLineOfTokens(tokens: seq<string>)
    requires forall k | 0 <= k < |tokens| :: IsWord(tokens[k])
    ensures CommandTokens(CommandLine(Join(" ", tokens))) == CommandTokens(TokenList(tokens))
  {
    WordsJoin(tokens);
  }

  /** The `top_n` that `profile_command` uses when none is given: 20 in one variant, 10 in the other. */
  function DefaultTopN(v: Variant): int {
    if v == Rich then 20 else 10
  }

  /** What `profile_command` returns, and the report it prints on the way. */
  datatype Session = Session(timings: TimingMap, analysis: Analysis)

  /** The module-level `profile_command(command, top_n)`; None stands for the default `top_n`. */
  function ProfileSession(v: Variant, input: CommandInput, topN: Option<int>, env: Environment): (s: Session)
    ensures DistinctKeys(s.timings)
    ensures forall e | e in s.timings :: AverageConsistent(e.record)
    ensures s.analysis.executionOutput == env.output
    ensures s.analysis.tables.NoTimingData? <==> |s.timings| == 0
    ensures s.analysis.tables.Views? && topN.None? ==>
      && |s.analysis.tables.slowest| == EnumerateCount(DefaultTopN(v), |s.timings|)
      && |s.analysis.tables.slowest| <= DefaultTopN(v)
      && |s.analysis.tables.mostCalled| <= DefaultTopN(v)
      && (s.analysis.tables.bySelfTime.Some? ==> |s.analysis.tables.bySelfTime.value| <= DefaultTopN(v))
  {
    var timings := ProfileCommand(v, CommandTokens(input), env).timings;
    ProfileCommandWellFormed(v, CommandTokens(input), env);
    var n := topN.GetOr(DefaultTopN(v));
    ViewSizes(v, timings, n);
    Session(timings, AnalysisOf(v, timings, env.output, n))
  }

  /**
   * A command line is profiled exactly as the list of its words would be:
   * splitting a line of words joined by spaces gives those words back.
   */
  lemma CommandLineMatchesTokenList(v: Variant, tokens: seq<string>, topN: Option<int>, env: Environment)
    requires forall k | 0 <= k < |tokens| :: IsWord(tokens[k])
    ensures ProfileSession(v, CommandLine(Join(" ", tokens)), topN, env) ==
      ProfileSession(v, TokenList(tokens), topN, env)
  {
    CommandLineOfTokens(tokens);
  }

  /**
   * An opaque command given as a line is keyed by its words joined with
   * single spaces, whatever whitespace separated them in the line.
   */
  lemma OpaqueLineKey(v: Variant, line: string, topN: Option<int>, env: Environment)
    requires env.wallClock.Finished? && |Words(line)| > 0
    requires !IsPythonCommand(Words(line))
    ensures var m := ProfileSession(v, CommandLine(line), topN, env).timings;
      |m| == 1 && m[0].key == Join(" ", Words(line)) + TotalExecution
  {
  }
}

=== FILE: pure_path.dfy ===
/**
 * The parts of `pathlib.PurePosixPath` the profiler reads: `name`, `suffix`
 * and `stem`.
 */
module PurePath {
  import opened Text

  /** A piece of a path that names something: not empty and not ".". */
  predicate IsNamedPart(piece: string) {
    piece != "" && piece != "."
  }

  /** The last named piece of a split path, or "" when there is none. */
  function LastNamed(pieces: seq<string>): (n: string)
    ensures n == "" || (IsNamedPart(n) && n in pieces)
    ensures |pieces| > 0 && IsNamedPart(Last(pieces)) ==> n == Last(pieces)
    decreases |pieces|
  {
    if |pieces| == 0 then ""
    else if IsNamedPart(Last(pieces)) then Last(pieces)
    else LastNamed(pieces[..|pieces| - 1])
  }

  /**
   * `Path(path).name`: the final component. The path is cut at every "/";
   * empty pieces (from "//" or a trailing "/") and "." pieces are not
   * components, so they are skipped.
   */
  function Name(path: string): (n: string)
    ensures n != "."
    ensures !Contains(n, "/")
  {
    SplitOnPiecesFree(path, "/");
    LastNamed(SplitOn(path, "/"))
  }

  /** A file name inside a directory is that path's name. */
  lemma NameInDirectory(dir: string, file: string)
    requires IsNamedPart(file) && !Contains(file, "/")
    ensures Name(dir + "/" + file) == file
  {
    LastPieceAfterSeparator(dir, "/", file);
  }

  /** A bare file name is its own name. */
  lemma NameOfBareFile(file: string)
    requires IsNamedPart(file) && !Contains(file, "/")
    ensures Name(file) == file
  {
    SplitOnAbsent(file, "/");
  }

  /** `s.rfind(c)`: the last index holding `c`, or -1. */
  function RFind(s: string, c: char): (i: int)
    ensures -1 <= i < |s|
    ensures i >= 0 ==> s[i] == c
    ensures forall j :: i < j < |s| ==> s[j] != c
    decreases |s|
  {
    if |s| == 0 then -1
    else if s[|s| - 1] == c then |s| - 1
    else RFind(s[..|s| - 1], c)
  }

  /** Whether the last dot of a name splits it into a stem and an extension. */
  predicate HasExtensionDot(n: string) {
    0 < RFind(n, '.') < |n| - 1
  }

  /** `Path(path).suffix`: from the last dot of the name, unless that dot is first or last. */
  function Suffix(path: string): (x: string)
    ensures x == "" || (x[0] == '.' && EndsWith(Name(path), x) && |x| < |Name(path)|)
  {
    var n := Name(path);
    if HasExtensionDot(n) then n[RFind(n, '.')..] else ""
  }

  /** `Path(path).stem`: the name without its suffix. */
  function Stem(path: string): (st: string)
    ensures StartsWith(Name(path), st)
    ensures st + Suffix(path) == Name(path)
  {
    var n := Name(path);
    if HasExtensionDot(n) then
      assert n == n[..RFind(n, '.')] + n[RFind(n, '.')..];
      n[..RFind(n, '.')]
    else n
  }

  /**
   * Python's suffix rule, stated without `rfind`: a suffix is a dot and at
   * least one more character, none of them a dot; and there is none exactly
   * when every dot strictly inside the name has a later dot after it.
   */
  lemma SuffixAtLastInnerDot(path: string)
    ensures Suffix(path) != "" ==> |Suffix(path)| >= 2 && forall j | 1 <= j < |Suffix(path)| :: Suffix(path)[j] != '.'
    ensures Suffix(path) == "" <==>
      forall i | 0 < i < |Name(path)| - 1 && Name(path)[i] == '.' :: exists j | i < j < |Name(path)| :: Name(path)[j] == '.'
  {
    var n := Name(path);
    var r := RFind(n, '.');
    if HasExtensionDot(n) {
      var x := n[r..];
      assert forall j | 1 <= j < |x| :: x[j] == n[r + j];
      assert n[r] == '.' && !(exists j | r < j < |n| :: n[j] == '.');
    } else {
      forall i | 0 < i < |n| - 1 && n[i] == '.'
        ensures exists j | i < j < |n| :: n[j] == '.'
      {
        assert r >= i;
        assert n[|n| - 1] == '.';
      }
    }
  }

  /** The stem followed by the suffix is the name. */
  lemma StemThenSuffix(path: string)
    ensures Stem(path) + Suffix(path) == Name(path)
  {
    var n := Name(path);
    if HasExtensionDot(n) {
      assert n == n[..RFind(n, '.')] + n[RFind(n, '.')..];
    }
  }

  /**
   * The suffix is ".py" exactly when the name ends in ".py" and has at least
   * one character before it: ".py" alone has no suffix.
   */
  lemma SuffixIsPy(path: string)
    ensures Suffix(path) == ".py" <==> (|Name(path)| >= 4 && EndsWith(Name(path), ".py"))
  {
    var n := Name(path);
    if |n| >= 4 && EndsWith(n, ".py") {
      assert n[|n| - 1] == 'y' && n[|n| - 2] == 'p' && n[|n| - 3] == '.';
      assert RFind(n, '.') == |n| - 3;
    }
  }

  /**
   * A Python file "<stem>.py" whose stem has no dot or slash, inside any
   * directory: its name keeps the extension, its stem drops it.
   */
  lemma PyFileInDirectory(dir: string, stem: string)
    requires |stem| > 0 && '.' !in stem && '/' !in stem
    ensures Name(dir + "/" + stem + ".py") == stem + ".py"
    ensures Stem(dir + "/" + stem + ".py") == stem
    ensures Suffix(dir + "/" + stem + ".py") == ".py"
  {
    var n := stem + ".py";
    assert n[|stem|] == '.' && n[|stem| + 1] == 'p' && n[|stem| + 2] == 'y';
    assert forall j | 0 <= j < |stem| :: n[j] == stem[j];
    ContainsChar(n, '/');
    assert dir + "/" + stem + ".py" == dir + "/" + n;
    NameInDirectory(dir, n);
    assert RFind(n, '.') == |stem|;
    assert n[..|stem|] == stem;
  }
}

=== FILE: report.dfy ===
/**
 * `analyze_performance` in both variants, as the rows it would print rather
 * than the printing itself: the execution block, then either the notice that
 * there is no timing data or the tables
 * - slowest: the first `top_n` entries in the dict's (already sorted) order;
 * - most called: `sorted(by call_count, reverse=True)[:top_n]`;
 * - by self time (ultralytics variant only): `sorted(by total_time,
 *   reverse=True)[:top_n]`, with the share of self time in cumulative time.
 * The ultralytics variant truncates long keys for display; the generic one
 * prints keys whole.
 */
module Report {
  import opened Wrappers
  import opened Text
  import opened Timings
  import opened Ordering
  import opened Normalizer

  /** Keys up to this many characters are shown whole. */
  const DisplayWidth: nat := 60

  /** `func_key if len(func_key) <= 60 else func_key[:57] + "..."` */
  function DisplayKey(k: string): (d: string)
    ensures |d| <= DisplayWidth
    ensures |k| <= DisplayWidth ==> d == k
    ensures |k| > DisplayWidth ==> |d| == DisplayWidth && StartsWith(k, d[..57]) && EndsWith(d, "...")
  {
    if |k| <= DisplayWidth then k
    else
      assert (k[..57] + "...")[..57] == k[..57];
      EndsWithConcat(k[..57], "...");
      k[..57] + "..."
  }

  /** Truncating a displayed key again changes nothing. */
  lemma DisplayKeyIdempotent(k: string)
    ensures DisplayKey(DisplayKey(k)) == DisplayKey(k)
  {
  }

  /** The label a variant prints for a key. */
  function Label(v: Variant, k: string): string {
    if v == Rich then DisplayKey(k) else k
  }

  /**
   * `total_time / cumulative_time * 100 if cumulative_time > 0 else 0`:
   * the share of a record's time spent in the function itself.
   */
  function SelfPercent(r: TimingRecord): (p: real)
    ensures r.cumulativeTime > 0.0 ==> p * r.cumulativeTime == r.totalTime * 100.0
    ensures r.cumulativeTime <= 0.0 ==> p == 0.0
  {
    if r.cumulativeTime > 0.0 then r.totalTime / r.cumulativeTime * 100.0 else 0.0
  }

  /** Self time within cumulative time is a percentage between 0 and 100. */
  lemma SelfPercentBounded(r: TimingRecord)
    requires 0.0 <= r.totalTime <= r.cumulativeTime
    ensures 0.0 <= SelfPercent(r) <= 100.0
  {
    if r.cumulativeTime > 0.0 {
      var p := SelfPercent(r);
      if p > 100.0 {
        assert p * r.cumulativeTime > 100.0 * r.cumulativeTime;
      }
      if p < 0.0 {
        assert p * r.cumulativeTime < 0.0;
      }
    }
  }

  /** How many elements `xs[:n]` keeps of a list of `len`, for any integer `n`. */
  function SliceLength(n: int, len: nat): (k: nat)
    ensures k <= len
    ensures n >= 0 ==> k == if n < len then n else len
    ensures n < 0 ==> k == if len + n > 0 then len + n else 0
  {
    if n >= 0 then (if n < len then n else len)
    else if len + n > 0 then len + n else 0
  }

  /** `xs[:n]` */
  function Take(m: TimingMap, n: int): (t: TimingMap)
    ensures |t| == SliceLength(n, |m|)
    ensures t == m[..|t|]
  {
    m[..SliceLength(n, |m|)]
  }

  /**
   * How many entries `for i, ... in enumerate(items): if i >= n: break`
   * visits: none when `n` is not positive, otherwise at most `n`.
   */
  function EnumerateCount(n: int, len: nat): (k: nat)
    ensures k <= len
    ensures n <= 0 ==> k == 0
    ensures n > 0 ==> k == if n < len then n else len
  {
    if n <= 0 then 0 else if n < len then n else len
  }

  datatype Row = Row(name: string, record: TimingRecord)

  datatype SelfRow = SelfRow(name: string, record: TimingRecord, selfPercent: real)

  /** What follows the execution block. */
  datatype Tables =
    | NoTimingData
    | Views(slowest: seq<Row>, mostCalled: seq<Row>, bySelfTime: Option<seq<SelfRow>>)

  /** The execution block (the command's output as given) and the tables. */
  datatype Analysis = Analysis(executionOutput: string, tables: Tables)

  /** One row per entry, in order, labelled as the variant prints keys. */
  function RowsOf(v: Variant, m: TimingMap): (rows: seq<Row>)
    ensures |rows| == |m|
    ensures forall i | 0 <= i < |m| :: rows[i] == Row(Label(v, m[i].key), m[i].record)
  {
    seq(|m|, i requires 0 <= i < |m| => Row(Label(v, m[i].key), m[i].record))
  }

  /** One self-time row per entry, in order. */
  function SelfRowsOf(m: TimingMap): (rows: seq<SelfRow>)
    ensures |rows| == |m|
    ensures forall i | 0 <= i < |m| ::
      rows[i] == SelfRow(DisplayKey(m[i].key), m[i].record, SelfPercent(m[i].record))
  {
    seq(|m|, i requires 0 <= i < |m| => SelfRow(DisplayKey(m[i].key), m[i].record, SelfPercent(m[i].record)))
  }

  /** The entries of the most-called view: `len(timings[:top_n])` of them, most calls first. */
  function MostCalled(m: TimingMap, topN: int): (t: TimingMap)
    ensures |t| == SliceLength(topN, |m|)
    ensures SortedBy(ByCallCount, t)
  {
    TakeSorted(ByCallCount, Sort(ByCallCount, m), topN);
    Take(Sort(ByCallCount, m), topN)
  }

  /** The entries of the self-time view: `len(timings[:top_n])` of them, most self time first. */
  function BySelfTime(m: TimingMap, topN: int): (t: TimingMap)
    ensures |t| == SliceLength(topN, |m|)
    ensures SortedBy(ByTotalTime, t)
  {
    TakeSorted(ByTotalTime, Sort(ByTotalTime, m), topN);
    Take(Sort(ByTotalTime, m), topN)
  }

  /** The rows of the slowest view: the dict's first entries, as many as the loop visits. */
  function SlowestView(v: Variant, m: TimingMap, topN: int): (rows: seq<Row>)
    ensures |rows| == EnumerateCount(topN, |m|)
    ensures forall i | 0 <= i < |rows| :: rows[i] == Row(Label(v, m[i].key), m[i].record)
  {
    RowsOf(v, m[..EnumerateCount(topN, |m|)])
  }

  /** The rows of the most-called view. */
  function MostCalledView(v: Variant, m: TimingMap, topN: int): seq<Row> {
    RowsOf(v, MostCalled(m, topN))
  }

  /** The rows of the self-time view. */
  function BySelfTimeView(m: TimingMap, topN: int): seq<SelfRow> {
    SelfRowsOf(BySelfTime(m, topN))
  }

  /** The report of a variant, as a reference for the loops below. */
  function AnalysisOf(v: Variant, m: TimingMap, output: string, topN: int): (a: Analysis)
    ensures a.executionOutput == output
    ensures a.tables.NoTimingData? <==> |m| == 0
    ensures a.tables.Views? ==> (a.tables.bySelfTime.Some? <==> v == Rich)
  {
    if |m| == 0 then Analysis(output, NoTimingData)
    else
      Analysis(output, Views(
        SlowestView(v, m, topN),
        MostCalledView(v, m, topN),
        if v == Rich then Some(BySelfTimeView(m, topN)) else None))
  }

  /**
   * The size of each view: the slowest view stops at `top_n`, the sliced
   * views keep `len(timings[:top_n])` rows.
   */
  lemma ViewSizes(v: Variant, m: TimingMap, topN: int)
    ensures |SlowestView(v, m, topN)| == EnumerateCount(topN, |m|)
    ensures |MostCalledView(v, m, topN)| == SliceLength(topN, |m|)
    ensures |BySelfTimeView(m, topN)| == SliceLength(topN, |m|)
  {
  }

  /** With a non-negative `top_n` every view has `min(top_n, len(timings))` rows. */
  lemma ViewSizesNonNegative(v: Variant, m: TimingMap, topN: int)
    requires topN >= 0
    ensures var n := if topN < |m| then topN else |m|;
      |SlowestView(v, m, topN)| == n && |MostCalledView(v, m, topN)| == n && |BySelfTimeView(m, topN)| == n
  {
    ViewSizes(v, m, topN);
  }

  /** The slowest view lists the dict's first entries in their stored order. */
  lemma SlowestInStoredOrder(v: Variant, m: TimingMap, topN: int)
    ensures var rows := SlowestView(v, m, topN);
      forall i | 0 <= i < |rows| :: rows[i] == Row(Label(v, m[i].key), m[i].record)
  {
  }

  /** The most-called view is ordered by call count, most first. */
  lemma MostCalledOrdered(v: Variant, m: TimingMap, topN: int)
    ensures var rows := MostCalledView(v, m, topN);
      forall i, j | 0 <= i < j < |rows| :: rows[i].record.callCount >= rows[j].record.callCount
  {
    TakeSorted(ByCallCount, Sort(ByCallCount, m), topN);
    RowsOfSorted(ByCallCount, v, MostCalled(m, topN));
  }

  /** The self-time view is ordered by self time, most first. */
  lemma BySelfTimeOrdered(m: TimingMap, topN: int)
    ensures var rows := BySelfTimeView(m, topN);
      forall i, j | 0 <= i < j < |rows| :: rows[i].record.totalTime >= rows[j].record.totalTime
  {
    TakeSorted(ByTotalTime, Sort(ByTotalTime, m), topN);
    SelfRowsOfSorted(ByTotalTime, BySelfTime(m, topN));
  }

  lemma TakeSorted(o: Order, s: TimingMap, n: int)
    requires SortedBy(o, s)
    ensures SortedBy(o, Take(s, n))
  {
  }

  lemma RowsOfSorted(o: Order, v: Variant, view: TimingMap)
    requires SortedBy(o, view)
    ensures var rows := RowsOf(v, view);
      forall i, j | 0 <= i < j < |rows| :: Precedes(o, rows[i].record, rows[j].record)
  {
  }

  lemma SelfRowsOfSorted(o: Order, view: TimingMap)
    requires SortedBy(o, view)
    ensures var rows := SelfRowsOf(view);
      forall i, j | 0 <= i < j < |rows| :: Precedes(o, rows[i].record, rows[j].record)
  {
  }

  /**
   * The most-called view shows the most-called entries: it is drawn from the
   * dict, and no entry left out was called more often than any entry shown.
   */
  lemma MostCalledAreTop(m: TimingMap, topN: int)
    ensures multiset(MostCalled(m, topN)) <= multiset(m)
    ensures forall e, x | e in multiset(m) - multiset(MostCalled(m, topN)) && x in MostCalled(m, topN) ::
      x.record.callCount >= e.record.callCount
  {
    TakeIsTop(ByCallCount, m, topN);
  }

  /** The self-time view likewise shows the entries with the most self time. */
  lemma BySelfTimeAreTop(m: TimingMap, topN: int)
    ensures multiset(BySelfTime(m, topN)) <= multiset(m)
    ensures forall e, x | e in multiset(m) - multiset(BySelfTime(m, topN)) && x in BySelfTime(m, topN) ::
      x.record.totalTime >= e.record.totalTime
  {
    TakeIsTop(ByTotalTime, m, topN);
  }

  /** A prefix of a sorted permutation holds entries that precede all the rest. */
  lemma TakeIsTop(o: Order, m: TimingMap, topN: int)
    ensures multiset(Take(Sort(o, m), topN)) <= multiset(m)
    ensures forall e, x | e in multiset(m) - multiset(Take(Sort(o, m), topN)) && x in Take(Sort(o, m), topN) ::
      Precedes(o, x.record, e.record)
  {
    var s := Sort(o, m);
    var k := SliceLength(topN, |s|);
    PrefixAndRest(s, k);
    forall e, x | e in multiset(m) - multiset(s[..k]) && x in s[..k]
      ensures Precedes(o, x.record, e.record)
    {
      PrefixPrecedesRest(o, s, k, x, e);
    }
  }

  lemma PrefixAndRest(s: TimingMap, k: nat)
    requires k <= |s|
    ensures multiset(s) == multiset(s[..k]) + multiset(s[k..])
  {
    assert s == s[..k] + s[k..];
  }

  lemma PrefixPrecedesRest(o: Order, s: TimingMap, k: nat, x: Entry, e: Entry)
    requires SortedBy(o, s) && k <= |s|
    requires x in s[..k] && e in multiset(s[k..])
    ensures Precedes(o, x.record, e.record)
  {
    var i :| 0 <= i < k && s[..k][i] == x;
    assert e in s[k..];
    var j :| 0 <= j < |s| - k && s[k..][j] == e;
    assert s[i] == x && s[k + j] == e;
  }

  /**
   * With a negative `top_n` the two kinds of view disagree: the slowest view
   * is empty, because the loop breaks at once, while `[:top_n]` drops entries
   * from the end and so the most-called view is not.
   */
  lemma NegativeTopNExample(v: Variant, m: TimingMap)
    requires |m| == 3
    ensures |SlowestView(v, m, -1)| == 0 && |MostCalledView(v, m, -1)| == 2
  {
    ViewSizes(v, m, -1);
  }

  /** The slowest view: the loop over the dict that breaks at `top_n`. */
  method SlowestRows(v: Variant, m: TimingMap, topN: int) returns (rows: seq<Row>)
    ensures rows == RowsOf(v, m[..EnumerateCount(topN, |m|)])
  {
    rows := [];
    var i := 0;
    while i < |m|
      invariant 0 <= i <= |m|
      invariant i == 0 || i <= topN
      invariant rows == RowsOf(v, m[..i])
    {
      if i >= topN {
        break;
      }
      rows := rows + [Row(Label(v, m[i].key), m[i].record)];
      i := i + 1;
    }
  }

  /** A view printed in full: one row per entry. */
  method ViewRows(v: Variant, view: TimingMap) returns (rows: seq<Row>)
    ensures rows == RowsOf(v, view)
  {
    rows := [];
    for i := 0 to |view|
      invariant rows == RowsOf(v, view[..i])
    {
      rows := rows + [Row(Label(v, view[i].key), view[i].record)];
    }
  }

  /** The self-time view printed in full, computing each guarded percentage. */
  method SelfViewRows(view: TimingMap) returns (rows: seq<SelfRow>)
    ensures rows == SelfRowsOf(view)
  {
    rows := [];
    for i := 0 to |view|
      invariant rows == SelfRowsOf(view[..i])
    {
      var r := view[i].record;
      var selfPercent := 0.0;
      if r.cumulativeTime > 0.0 {
        selfPercent := r.totalTime / r.cumulativeTime * 100.0;
      }
      rows := rows + [SelfRow(DisplayKey(view[i].key), r, selfPercent)];
    }
  }

  /** `analyze_performance` of variant `v`. */
  method AnalyzePerformance(v: Variant, timings: TimingMap, output: string, topN: int) returns (a: Analysis)
    ensures a == AnalysisOf(v, timings, output, topN)
  {
    if |timings| == 0 {
      return Analysis(output, NoTimingData);
    }
    var slowest := SlowestRows(v, timings, topN);
    var mostCalled := ViewRows(v, MostCalled(timings, topN));
    var bySelfTime: Option<seq<SelfRow>> := None;
    if v == Rich {
      var rows := SelfViewRows(BySelfTime(timings, topN));
      bySelfTime := Some(rows);
    }
    a := Analysis(output, Views(slowest, mostCalled, bySelfTime));
  }
}

=== FILE: text.dfy ===
/**
 * Operations on strings with the meaning Python's `str` methods give them:
 * prefix and suffix tests, substring search and `in`, `split(sep)`, `join`,
 * `split()` on whitespace, `lower()` and `str()` of a non-negative integer.
 */
module Text {
  import opened Wrappers

  /** `s.startswith(p)` */
  predicate StartsWith(s: string, p: string) {
    |p| <= |s| && s[..|p|] == p
  }

  /** `s.endswith(p)` */
  predicate EndsWith(s: string, p: string) {
    |p| <= |s| && s[|s| - |p|..] == p
  }

  /** A prefix of `a` is a prefix of `a + b`. */
  lemma StartsWithConcat(a: string, b: string, p: string)
    requires StartsWith(a, p)
    ensures StartsWith(a + b, p)
  {
    assert (a + b)[..|p|] == a[..|p|];
  }

  /** `a + b` ends with `b`. */
  lemma EndsWithConcat(a: string, b: string)
    ensures EndsWith(a + b, b)
  {
    assert (a + b)[|a|..] == b;
  }

  /** Ending with `a + b` means ending with `b`. */
  lemma EndsWithPart(s: string, a: string, b: string)
    requires EndsWith(s, a + b)
    ensures EndsWith(s, b)
  {
    assert s[|s| - |b|..] == (a + b)[|a|..];
  }

  /** `p` occurs in `s` starting at index `j`. */
  predicate OccursAt(s: string, p: string, j: nat) {
    j <= |s| && StartsWith(s[j..], p)
  }

  /** `s.find(p)`: the first index at which `p` occurs in `s`, if any. */
  function Find(s: string, p: string): (r: Option<nat>)
    ensures r.Some? ==> OccursAt(s, p, r.value)
    ensures r.Some? ==> forall j: nat :: j < r.value ==> !OccursAt(s, p, j)
    ensures r.None? ==> forall j: nat :: !OccursAt(s, p, j)
    decreases |s|
  {
    if StartsWith(s, p) then
      assert s[0..] == s;
      Some(0)
    else if |s| == 0 then None
    else
      assert forall j: nat | 1 <= j :: OccursAt(s, p, j) == OccursAt(s[1..], p, j - 1) by {
        forall j: nat | 1 <= j <= |s| ensures s[1..][j - 1..] == s[j..] { }
      }
      assert !OccursAt(s, p, 0) by { assert s[0..] == s; }
      match Find(s[1..], p)
      case None => None
      case Some(k) => Some(k + 1)
  }

  /** Python's `p in s` for strings. */
  predicate Contains(s: string, p: string) {
    Find(s, p).Some?
  }

  /** An occurrence anywhere in `s` makes `p in s` true. */
  lemma ContainsAt(s: string, p: string, i: nat)
    requires OccursAt(s, p, i)
    ensures Contains(s, p)
  {
  }

  /** A one-character string occurs exactly when that character does. */
  lemma ContainsChar(s: string, c: char)
    ensures Contains(s, [c]) <==> c in s
  {
    if c in s {
      var i :| 0 <= i < |s| && s[i] == c;
      assert s[i..][..1] == [c];
      ContainsAt(s, [c], i);
    }
    if Contains(s, [c]) {
      var i := Find(s, [c]).value;
      assert s[i..][..1] == [c];
      assert s[i] == c;
    }
  }

  /** A string that contains `p` has a prefix or suffix that does; both extend. */
  lemma {:induction false} ContainsConcat(a: string, b: string, p: string)
    ensures Contains(a, p) ==> Contains(a + b, p)
    ensures Contains(b, p) ==> Contains(a + b, p)
  {
    if Contains(a, p) {
      var i := Find(a, p).value;
      assert (a + b)[i..][..|p|] == a[i..][..|p|];
      ContainsAt(a + b, p, i);
    }
    if Contains(b, p) {
      var i := Find(b, p).value;
      assert (a + b)[|a| + i..] == b[i..];
      ContainsAt(a + b, p, |a| + i);
    }
  }

  /** Whatever contains `p + q` contains `p` and contains `q`. */
  lemma ContainsPart(s: string, p: string, q: string)
    requires Contains(s, p + q)
    ensures Contains(s, p) && Contains(s, q)
  {
    var i := Find(s, p + q).value;
    assert s[i..][..|p|] == (p + q)[..|p|] == p;
    ContainsAt(s, p, i);
    assert s[i + |p|..][..|q|] == (p + q)[|p|..] == q;
    ContainsAt(s, q, i + |p|);
  }

  /** `sep.join(parts)` */
  function Join(sep: string, parts: seq<string>): (s: string)
    ensures |parts| == 0 ==> s == ""
    ensures |parts| > 0 ==> StartsWith(s, parts[0])
    ensures |parts| > 1 ==> StartsWith(s, parts[0] + sep)
    decreases |parts|
  {
    if |parts| == 0 then ""
    else if |parts| == 1 then parts[0]
    else
      StartsWithConcat(parts[0] + sep, Join(sep, parts[1..]), parts[0] + sep);
      StartsWithConcat(parts[0], sep + Join(sep, parts[1..]), parts[0]);
      assert parts[0] + sep + Join(sep, parts[1..]) == parts[0] + (sep + Join(sep, parts[1..]));
      parts[0] + sep + Join(sep, parts[1..])
  }

  /** `s.split(sep)` for a non-empty separator: cut at each occurrence, scanning left to right. */
  function SplitOn(s: string, sep: string): (parts: seq<string>)
    requires |sep| > 0
    ensures |parts| >= 1
    decreases |s|
  {
    match Find(s, sep)
    case None => [s]
    case Some(i) => [s[..i]] + SplitOn(s[i + |sep|..], sep)
  }

  /** One step of the split: the text before the first separator, then the split of the rest. */
  lemma SplitOnStep(s: string, sep: string, i: nat)
    requires |sep| > 0 && Find(s, sep) == Some(i)
    ensures SplitOn(s, sep) == [s[..i]] + SplitOn(s[i + |sep|..], sep)
  {
  }

  /** A string without the separator splits into just itself. */
  lemma SplitOnAbsent(s: string, sep: string)
    requires |sep| > 0 && !Contains(s, sep)
    ensures SplitOn(s, sep) == [s]
  {
  }

  /** The last element of a non-empty sequence, Python's `xs[-1]`. */
  function Last<T>(xs: seq<T>): T
    requires |xs| > 0
  {
    xs[|xs| - 1]
  }

  /** Splitting and joining back with the same separator gives the original string. */
  lemma {:induction false} JoinSplitOn(s: string, sep: string)
    requires |sep| > 0
    ensures Join(sep, SplitOn(s, sep)) == s
    decreases |s|
  {
    match Find(s, sep)
    case None =>
    case Some(i) =>
      var rest := s[i + |sep|..];
      JoinSplitOn(rest, sep);
      JoinCons(sep, s[..i], SplitOn(rest, sep));
      CutAtOccurrence(s, sep, i);
  }

  /** Joining a non-empty list puts the separator after its first element. */
  lemma JoinCons(sep: string, head: string, tail: seq<string>)
    requires |tail| > 0
    ensures Join(sep, [head] + tail) == head + sep + Join(sep, tail)
  {
    assert ([head] + tail)[1..] == tail;
  }

  /** Around an occurrence of `p`, `s` is the text before, `p`, and the text after. */
  lemma CutAtOccurrence(s: string, p: string, i: nat)
    requires OccursAt(s, p, i)
    ensures s == s[..i] + p + s[i + |p|..]
  {
    var t := s[i..];
    assert t[..|p|] == p && t[|p|..] == s[i + |p|..];
    assert t == p + s[i + |p|..];
    assert s == s[..i] + t;
  }

  /** No piece of a split still holds the separator. */
  lemma {:induction false} SplitOnPiecesFree(s: string, sep: string)
    requires |sep| > 0
    ensures forall piece | piece in SplitOn(s, sep) :: !Contains(piece, sep)
    decreases |s|
  {
    match Find(s, sep)
    case None =>
      assert SplitOn(s, sep) == [s];
    case Some(i) =>
      var rest := s[i + |sep|..];
      SplitOnPiecesFree(rest, sep);
      FirstPieceFree(s, sep, i);
      SplitOnStep(s, sep, i);
      PiecesOfCons(s[..i], SplitOn(rest, sep), SplitOn(s, sep), sep);
  }

  lemma PiecesOfCons(head: string, tail: seq<string>, parts: seq<string>, sep: string)
    requires parts == [head] + tail
    requires !Contains(head, sep)
    requires forall piece | piece in tail :: !Contains(piece, sep)
    ensures forall piece | piece in parts :: !Contains(piece, sep)
  {
  }

  /** The text before the first occurrence of `sep` does not contain `sep`. */
  lemma {:induction false} FirstPieceFree(s: string, sep: string, i: nat)
    requires |sep| > 0 && Find(s, sep) == Some(i)
    ensures !Contains(s[..i], sep)
  {
    if Contains(s[..i], sep) {
      var j := Find(s[..i], sep).value;
      StartsWithWithin(s, i, j, sep);
      assert false;
    }
  }

  /** An occurrence inside a prefix of `s` is an occurrence in `s`. */
  lemma StartsWithWithin(s: string, i: nat, j: nat, p: string)
    requires i <= |s| && OccursAt(s[..i], p, j)
    ensures OccursAt(s, p, j)
  {
    assert s[..i][j..][..|p|] == s[j..][..|p|];
  }

  /**
   * The last character of `sep` occurs nowhere else in it. Two occurrences
   * of such a separator cannot overlap; "/", "torch/" and "ultralytics/" are
   * all of this kind.
   */
  predicate EndMarked(sep: string) {
    |sep| > 0 && forall k | 0 <= k < |sep| - 1 :: sep[k] != sep[|sep| - 1]
  }

  /** A directory name followed by "/" is end-marked when the name has no "/". */
  lemma EndMarkedDirectory(dir: string)
    requires '/' !in dir
    ensures EndMarked(dir + "/")
  {
    assert forall k | 0 <= k < |dir| :: (dir + "/")[k] == dir[k];
  }

  lemma LastOfCons<T>(head: T, tail: seq<T>)
    requires |tail| > 0
    ensures Last([head] + tail) == Last(tail)
  {
  }

  /** For an end-marked separator, the last piece is whatever follows the last separator. */
  lemma {:induction false} LastPieceAfterSeparator(x: string, sep: string, b: string)
    requires EndMarked(sep) && !Contains(b, sep)
    ensures Last(SplitOn(x + sep + b, sep)) == b
    decreases |x|
  {
    var s := x + sep + b;
    var i := FirstSeparator(x, sep, b);
    var rest := s[i + |sep|..];
    assert SplitOn(s, sep) == [s[..i]] + SplitOn(rest, sep) by {
      SplitOnStep(s, sep, i);
    }
    LastOfCons(s[..i], SplitOn(rest, sep));
    if i == |x| {
      SplitOnAbsent(b, sep);
    } else {
      LastPieceAfterSeparator(x[i + |sep|..], sep, b);
    }
  }

  /** For an end-marked separator that `x` does not contain, the first piece of `x + sep + b` is `x`. */
  lemma FirstPieceBeforeSeparator(x: string, sep: string, b: string)
    requires EndMarked(sep) && !Contains(x, sep)
    ensures SplitOn(x + sep + b, sep)[0] == x
  {
    var s := x + sep + b;
    var i := FirstSeparator(x, sep, b);
    if i < |x| {
      assert OccursAt(x, sep, i) by {
        assert x[i..][..|sep|] == s[i..][..|sep|];
      }
      ContainsAt(x, sep, i);
    }
    SplitOnStep(s, sep, i);
    assert s[..|x|] == x;
  }

  /**
   * In `x + sep + b` the first occurrence of an end-marked separator lies
   * wholly within `x` or right after it, and what follows it is `b` or the
   * rest of `x`, the separator and `b`.
   */
  lemma FirstSeparator(x: string, sep: string, b: string) returns (i: nat)
    requires EndMarked(sep)
    ensures Find(x + sep + b, sep) == Some(i)
    ensures i == |x| || i + |sep| <= |x|
    ensures i == |x| ==> (x + sep + b)[i + |sep|..] == b
    ensures i < |x| ==> (x + sep + b)[i + |sep|..] == x[i + |sep|..] + sep + b
  {
    var s := x + sep + b;
    assert OccursAt(s, sep, |x|) by {
      assert s[|x|..][..|sep|] == sep;
    }
    i := Find(s, sep).value;
    assert i <= |x|;
    if i < |x| {
      OccurrencesApart(s, sep, i, |x|);
    }
    if i == |x| {
      assert s[i + |sep|..] == b;
    } else {
      assert s[i + |sep|..] == x[i + |sep|..] + sep + b by {
        assert s == x + (sep + b);
        assert s[i + |sep|..] == x[i + |sep|..] + (sep + b);
      }
    }
  }

  /** Two occurrences of an end-marked separator do not overlap. */
  lemma OccurrencesApart(s: string, sep: string, i: nat, j: nat)
    requires EndMarked(sep) && OccursAt(s, sep, i) && OccursAt(s, sep, j) && i < j
    ensures i + |sep| <= j
  {
    var e := i + |sep| - 1;
    assert s[e] == sep[|sep| - 1] by {
      assert s[i..][..|sep|][|sep| - 1] == s[e];
    }
    forall k | j <= k < j + |sep| - 1
      ensures s[k] != sep[|sep| - 1]
    {
      assert s[j..][..|sep|][k - j] == s[k];
    }
  }

  /**
   * With a one-character separator, joining pieces that do not contain it and
   * splitting again gives back the pieces.
   */
  lemma {:induction false} SplitOnJoin(parts: seq<string>, sep: string)
    requires |sep| == 1 && |parts| > 0
    requires forall piece | piece in parts :: !Contains(piece, sep)
    ensures SplitOn(Join(sep, parts), sep) == parts
    decreases |parts|
  {
    if |parts| > 1 {
      var x := parts[0];
      var rest := Join(sep, parts[1..]);
      var s := x + sep + rest;
      assert Join(sep, parts) == s;
      assert OccursAt(s, sep, |x|) by { assert s[|x|..][..1] == sep; }
      var i := Find(s, sep).value;
      if i < |x| {
        assert s[i..][..1] == x[i..][..1];
        ContainsAt(x, sep, i);
      }
      assert i == |x|;
      assert s[..i] == x && s[i + 1..] == rest;
      SplitOnStep(s, sep, i);
      SplitOnJoin(parts[1..], sep);
      assert parts == [x] + parts[1..];
    } else {
      assert Join(sep, parts) == parts[0];
      SplitOnAbsent(parts[0], sep);
      assert parts == [parts[0]];
    }
  }

  // ---------------------------------------------------------------------
  // `str.split()` with no argument: runs of whitespace separate the words.

  /** Python's `str.isspace` on one character (the characters `str.split()` cuts at). */
  predicate IsSpace(c: char) {
    || ('\t' <= c <= '\r')
    || ('\U{1c}' <= c <= '\U{1f}')
    || c == ' ' || c == '\U{85}' || c == '\U{a0}' || c == '\U{1680}'
    || ('\U{2000}' <= c <= '\U{200a}')
    || c == '\U{2028}' || c == '\U{2029}' || c == '\U{202f}' || c == '\U{205f}' || c == '\U{3000}'
  }

  /** A word as `str.split()` returns it: non-empty, without whitespace. */
  predicate IsWord(w: string) {
    |w| > 0 && forall i :: 0 <= i < |w| ==> !IsSpace(w[i])
  }

  /** Length of the run of non-space characters at the start of `s`. */
  function WordLength(s: string): (n: nat)
    ensures n <= |s|
    ensures forall i :: 0 <= i < n ==> !IsSpace(s[i])
    ensures n < |s| ==> IsSpace(s[n])
    decreases |s|
  {
    if |s| == 0 || IsSpace(s[0]) then 0 else 1 + WordLength(s[1..])
  }

  /** `s.split()` */
  function Words(s: string): (ws: seq<string>)
    ensures forall k :: 0 <= k < |ws| ==> IsWord(ws[k])
    decreases |s|
  {
    if |s| == 0 then []
    else if IsSpace(s[0]) then Words(s[1..])
    else
      var n := WordLength(s);
      [s[..n]] + Words(s[n..])
  }

  lemma {:induction false} WordsOfWordThenRest(w: string, rest: string)
    requires IsWord(w)
    requires |rest| == 0 || IsSpace(rest[0])
    ensures Words(w + rest) == [w] + Words(rest)
  {
    var s := w + rest;
    WordLengthOfWord(w, rest);
    assert s[..|w|] == w && s[|w|..] == rest;
  }

  lemma {:induction false} WordLengthOfWord(w: string, rest: string)
    requires forall i :: 0 <= i < |w| ==> !IsSpace(w[i])
    requires |rest| == 0 || IsSpace(rest[0])
    ensures WordLength(w + rest) == |w|
    decreases |w|
  {
    if |w| > 0 {
      assert (w + rest)[1..] == w[1..] + rest;
      WordLengthOfWord(w[1..], rest);
    } else {
      assert w + rest == rest;
    }
  }

  /** A string of whitespace only, the empty string included, has no words. */
  lemma {:induction false} WordsOfBlank(s: string)
    requires forall i :: 0 <= i < |s| ==> IsSpace(s[i])
    ensures Words(s) == []
    decreases |s|
  {
    if |s| > 0 {
      WordsOfBlank(s[1..]);
    }
  }

  /** Leading whitespace, however long and of whatever kind, is skipped. */
  lemma {:induction false} WordsAfterBlank(sp: string, s: string)
    requires forall i :: 0 <= i < |sp| ==> IsSpace(sp[i])
    ensures Words(sp + s) == Words(s)
    decreases |sp|
  {
    if |sp| > 0 {
      assert (sp + s)[1..] == sp[1..] + s;
      WordsAfterBlank(sp[1..], s);
    } else {
      assert sp + s == s;
    }
  }

  /** A word followed by any non-empty run of whitespace is one piece; the split goes on after the run. */
  lemma WordsOfWordThenBlank(w: string, sp: string, rest: string)
    requires IsWord(w)
    requires |sp| > 0 && forall i :: 0 <= i < |sp| ==> IsSpace(sp[i])
    ensures Words(w + sp + rest) == [w] + Words(rest)
  {
    assert w + sp + rest == w + (sp + rest);
    WordsOfWordThenRest(w, sp + rest);
    WordsAfterBlank(sp, rest);
  }

  /** Joining words with single spaces and splitting again gives the same words. */
  lemma {:induction false} WordsJoin(ws: seq<string>)
    requires forall k :: 0 <= k < |ws| ==> IsWord(ws[k])
    ensures Words(Join(" ", ws)) == ws
    decreases |ws|
  {
    if |ws| == 1 {
      WordsOfWordThenRest(ws[0], "");
      assert ws[0] + "" == ws[0];
    } else if |ws| > 1 {
      var rest := Join(" ", ws[1..]);
      WordsJoin(ws[1..]);
      assert Join(" ", ws) == ws[0] + (" " + rest);
      WordsOfWordThenRest(ws[0], " " + rest);
      assert (" " + rest)[1..] == rest;
    }
  }

  // ---------------------------------------------------------------------
  // `lower()` and `str()` of a non-negative integer.

  /** Lower-cases one ASCII letter; other characters are unchanged. */
  function LowerChar(c: char): (d: char)
    ensures 'A' <= c <= 'Z' ==> 'a' <= d <= 'z' && d as int - 'a' as int == c as int - 'A' as int
    ensures !('A' <= c <= 'Z') ==> d == c
  {
    if 'A' <= c <= 'Z' then (c as int - 'A' as int + 'a' as int) as char else c
  }

  /** `s.lower()` restricted to ASCII letters. */
  function Lower(s: string): (r: string)
    ensures |r| == |s|
    ensures forall i :: 0 <= i < |s| ==> r[i] == LowerChar(s[i])
  {
    seq(|s|, i requires 0 <= i < |s| => LowerChar(s[i]))
  }

  predicate IsDigit(c: char) {
    '0' <= c <= '9'
  }

  function DigitChar(d: nat): (c: char)
    requires d < 10
    ensures IsDigit(c) && c as int - '0' as int == d
  {
    ('0' as int + d) as char
  }

  /** `str(n)` for `n >= 0`: decimal digits, most significant first, no leading zero. */
  function NatToString(n: nat): (s: string)
    ensures |s| >= 1
    ensures forall i :: 0 <= i < |s| ==> IsDigit(s[i])
    ensures s[0] == '0' ==> n == 0
    decreases n
  {
    if n < 10 then [DigitChar(n)] else NatToString(n / 10) + [DigitChar(n % 10)]
  }

  function DigitValue(c: char): (d: nat)
    requires IsDigit(c)
    ensures d < 10
  {
    c as int - '0' as int
  }

  /** `int(s)` for a string of decimal digits. */
  function ParseNat(s: string): nat
    requires forall i :: 0 <= i < |s| ==> IsDigit(s[i])
    decreases |s|
  {
    if |s| == 0 then 0
    else ParseNat(s[..|s| - 1]) * 10 + DigitValue(s[|s| - 1])
  }

  /** Reading back the digits `str(n)` writes gives `n`. */
  lemma {:induction false} ParseNatToString(n: nat)
    ensures ParseNat(NatToString(n)) == n
    decreases n
  {
    if n >= 10 {
      var s := NatToString(n);
      ParseNatToString(n / 10);
      assert s[..|s| - 1] == NatToString(n / 10);
    }
  }
}

=== FILE: timings.dfy ===
/**
 * The data the profiler collects: raw per-call-site samples as cProfile
 * reports them, the timing record kept per reporting key, and the
 * insertion-ordered dictionary from key to record that every profiling path
 * returns.
 */
module Timings {
  import opened Wrappers

  /**
   * One entry of `pstats.Stats.stats`: the call site `(filename, line,
   * func_name)` and the figures the profiler reads from it.
   * `totalTime` is the self time, excluding callees; `cumulativeTime`
   * includes them.
   */
  datatype RawSample = RawSample(
    filename: string,
    line: nat,
    funcName: string,
    callCount: nat,
    totalTime: real,
    cumulativeTime: real)

  /**
   * The record stored under a key. `isUltralytics` is None in the variants
   * whose records carry no such field.
   */
  datatype TimingRecord = TimingRecord(
    cumulativeTime: real,
    totalTime: real,
    callCount: nat,
    avgTime: real,
    filename: string,
    isUltralytics: Option<bool>)

  datatype Entry = Entry(key: string, record: TimingRecord)

  /** A Python dict from key to record; the sequence order is the dict's insertion order. */
  type TimingMap = seq<Entry>

  /** `cumulative_time / call_count if call_count > 0 else 0` */
  function AvgTime(cumulative: real, calls: nat): (avg: real)
    ensures calls > 0 ==> avg * calls as real == cumulative
    ensures calls == 0 ==> avg == 0.0
  {
    if calls > 0 then cumulative / calls as real else 0.0
  }

  /** The average stored in a record is its cumulative time per call, guarded against zero calls. */
  predicate AverageConsistent(r: TimingRecord) {
    r.avgTime == AvgTime(r.cumulativeTime, r.callCount)
  }

  /** The keys of a dict. */
  function KeySet(m: TimingMap): (ks: set<string>)
    ensures forall e | e in m :: e.key in ks
    decreases |m|
  {
    if |m| == 0 then {} else {m[0].key} + KeySet(m[1..])
  }

  /** The keys of an entry put in front of a dict. */
  lemma KeySetCons(e: Entry, m: TimingMap)
    ensures KeySet([e] + m) == {e.key} + KeySet(m)
  {
    assert ([e] + m)[1..] == m;
  }

  /** No key appears twice, as in any dict. */
  predicate DistinctKeys(m: TimingMap)
    decreases |m|
  {
    |m| == 0 || (m[0].key !in KeySet(m[1..]) && DistinctKeys(m[1..]))
  }

  /** `d.get(k)` */
  function Lookup(m: TimingMap, k: string): (r: Option<TimingRecord>)
    ensures r.Some? ==> Entry(k, r.value) in m
    ensures r.None? <==> k !in KeySet(m)
    decreases |m|
  {
    if |m| == 0 then None
    else if m[0].key == k then Some(m[0].record)
    else Lookup(m[1..], k)
  }

  /** In a dict, an entry is what looking up its key finds. */
  lemma {:induction false} LookupEntry(m: TimingMap, e: Entry)
    requires DistinctKeys(m) && e in m
    ensures Lookup(m, e.key) == Some(e.record)
    decreases |m|
  {
    if m[0] != e {
      assert e in m[1..];
      assert e.key in KeySet(m[1..]);
      LookupEntry(m[1..], e);
    }
  }

  /**
   * `d[k] = r`: afterwards `k` finds `r` and every other key finds what it
   * found before.
   */
  function Upsert(m: TimingMap, k: string, r: TimingRecord): (m': TimingMap)
    ensures Lookup(m', k) == Some(r)
    ensures forall k' | k' != k :: Lookup(m', k') == Lookup(m, k')
    ensures KeySet(m') == KeySet(m) + {k}
    decreases |m|
  {
    if |m| == 0 then [Entry(k, r)]
    else if m[0].key == k then
      assert ([Entry(k, r)] + m[1..])[1..] == m[1..];
      [Entry(k, r)] + m[1..]
    else
      var tail := Upsert(m[1..], k, r);
      assert ([m[0]] + tail)[1..] == tail;
      [m[0]] + tail
  }

  /**
   * Dict order under `d[k] = r` for a key already present: it keeps its
   * position, so the key order is unchanged.
   */
  lemma {:induction false} UpsertKeepsPosition(m: TimingMap, k: string, r: TimingRecord)
    requires k in KeySet(m)
    ensures |Upsert(m, k, r)| == |m|
    ensures forall i | 0 <= i < |m| :: Upsert(m, k, r)[i].key == m[i].key
    decreases |m|
  {
    if m[0].key != k {
      var tail := Upsert(m[1..], k, r);
      UpsertKeepsPosition(m[1..], k, r);
      assert Upsert(m, k, r) == [m[0]] + tail;
    }
  }

  /** Dict order under `d[k] = r` for a new key: it is appended at the end. */
  lemma {:induction false} UpsertAppends(m: TimingMap, k: string, r: TimingRecord)
    requires k !in KeySet(m)
    ensures Upsert(m, k, r) == m + [Entry(k, r)]
    decreases |m|
  {
    if |m| > 0 {
      assert m[0].key != k;
      calc {
        Upsert(m, k, r);
        [m[0]] + Upsert(m[1..], k, r);
        { UpsertAppends(m[1..], k, r); }
        [m[0]] + (m[1..] + [Entry(k, r)]);
        { assert m == [m[0]] + m[1..]; }
        m + [Entry(k, r)];
      }
    }
  }

  /** Assigning into a dict keeps its keys distinct. */
  lemma {:induction false} UpsertKeepsDistinct(m: TimingMap, k: string, r: TimingRecord)
    requires DistinctKeys(m)
    ensures DistinctKeys(Upsert(m, k, r))
    decreases |m|
  {
    if |m| > 0 {
      var m' := Upsert(m, k, r);
      if m[0].key == k {
        assert m'[1..] == m[1..];
      } else {
        UpsertKeepsDistinct(m[1..], k, r);
        assert m'[1..] == Upsert(m[1..], k, r);
      }
    }
  }

  /** After `d[k] = r` the dict holds the new entry and otherwise entries it held before. */
  lemma {:induction false} UpsertEntries(m: TimingMap, k: string, r: TimingRecord)
    ensures forall x | x in Upsert(m, k, r) :: x == Entry(k, r) || x in m
    decreases |m|
  {
    if |m| > 0 && m[0].key != k {
      UpsertEntries(m[1..], k, r);
      assert Upsert(m, k, r) == [m[0]] + Upsert(m[1..], k, r);
    }
  }

  /** Two dicts holding the same entries answer every lookup alike, whatever their order. */
  lemma LookupPermutation(a: TimingMap, b: TimingMap, k: string)
    requires multiset(a) == multiset(b) && DistinctKeys(a) && DistinctKeys(b)
    ensures Lookup(a, k) == Lookup(b, k)
  {
    LookupFoundInPermutation(a, b, k);
    LookupFoundInPermutation(b, a, k);
  }

  lemma LookupFoundInPermutation(a: TimingMap, b: TimingMap, k: string)
    requires multiset(a) == multiset(b) && DistinctKeys(b)
    ensures Lookup(a, k).Some? ==> Lookup(b, k) == Lookup(a, k)
  {
    if Lookup(a, k).Some? {
      var e := Entry(k, Lookup(a, k).value);
      assert e in multiset(b);
      LookupEntry(b, e);
    }
  }
}

=== FILE: wrappers.dfy ===
/** The optional-value datatype shared by the other modules. */
module Wrappers {

  /** A value that may be absent, in place of Python's `None`. */
  datatype Option<+T> = None | Some(value: T) {

    /** Returns the value carried by Some, or `default` if None. */
    function GetOr(default: T): T {
      match this
      case Some(v) => v
      case None => default
    }
  }
}
